=== FILE: README.md ===
# flow: the workflow orchestration core, in Dafny

This project models the core of **flow**, a service that runs multi-turn teaching
conversations. It covers the six workflows and the pieces they share.

- **Examination** is an oral exam with a budget of follow-up questions.
- **FillGaps** is a drill of exactly ten graded fill-in-the-gap assignments.
- **Analogous** runs a topic negotiation, then an endless series of graded assignments.
- **Roleplay** is a scenario that runs until a finish condition holds.
- **Reflection** is a four-phase coaching session.
- **Custom** is a free chat.

The shared pieces are these:

- the session state and its load-or-create lifecycle (`workflows/base.py`);
- the lenient decoding of a block's specifications and criteria;
- the points total;
- the keyword and length heuristics that decide whether a message is a real answer;
- the template registry (`workflows/__init__.py`);
- from the Xano client: the score extractor, the session-update request, and the
  conversion of a state to and from its stored row (`xano_client.py`).

Each workflow turn is a pure function, `Step`, from the loaded state and the turn's
inputs to the state to persist and the reply. Non-streaming workflows return a `Turn`
(state and reply text). Streaming workflows return a `StreamTurn` (state and the chunks
yielded). Everything the language model produces is an input of `Step`: the generated
text, the chunk stream, and the evaluator's structured verdict. So is the current
timestamp. `Run` folds `Step` over a whole conversation. The lemmas about `Run` state
what holds for every conversation from a valid state, and `FreshIsValid` shows that a
freshly created state is valid.

Modules follow the source files:

| module | file |
|---|---|
| `Base` | `workflows/base.py` |
| `Examination` | `workflows/examination.py` |
| `FillGaps` | `workflows/fill_gaps.py` |
| `Analogous` | `workflows/analogous.py` |
| `Roleplay` | `workflows/roleplay.py` |
| `Reflection` | `workflows/reflection.py` |
| `Custom` | `workflows/custom.py` |
| `Registry` | `workflows/__init__.py` |
| `XanoClient` | `xano_client.py` |

Three modules have no source file of their own:

- `Classifiers` holds the answer heuristics that FillGaps and Analogous share.
- `Strings` holds the parts of Python's `str`, `split`, `strip`, `lower`, `in` and
  `re.search` that the code relies on.
- `Maybe` holds `Option`.

In these places the code does something other than what one might expect. The model
follows the code:

- **FillGaps has no length test.** One might expect both assignment workflows to
  decline answers that are too short for the assignment. Only Analogous does this, in
  workflows/analogous.py:313-317. FillGaps (workflows/fill_gaps.py:209-215) tests only
  for questions and short replies.
- **Records are not append-only.** One might expect `answers` to be an append-only
  log. The code rewrites the last record in place: it judges it, sets its topic, or
  stores the tutor's reply. The contracts say exactly that: every record but the last
  is kept, and at most one is appended per turn.
- **A zero denominator moves on to the next pattern.** One might expect a match with
  a zero denominator to end the search with no score. In the code
  (xano_client.py:88-97) it only hands the text on to the next pattern. A later match
  of the same pattern is never tried.
- **The streaming workflows never run from the message endpoint.** FillGaps, Roleplay
  and Reflection are registered, but they override only `run_workflow_stream`. So
  `main.py`'s message endpoint cannot instantiate them (`Registry.DispatchFor`).

## Model

| member | source | states |
|---|---|---|
| Base.Lookup | workflows/roleplay.py:115 | `spec.get(key, default)`: the default exactly when no entry has the key, otherwise the value of an entry with that key |
| Base.LoadOrCreate | workflows/base.py:63-84 | a stored state is returned as is, without a save; otherwise a fresh state (index 0, no answers, no follow-ups, budget 3, active, empty custom data, the given specifications) is created, saved and returned |
| Base.LoadOrCreateIdempotent | workflows/base.py:63-84 | two calls with nothing in between return the same state, and the second neither creates nor saves |
| Base.ParseList | workflows/base.py:86-102 | the shared lenient decoding: absent gives `[]`, text that does not decode gives `[]`, decodable text gives its value, a structured list passes through |
| Base.ParseSpecifications | workflows/base.py:86-93 | `parse_specifications` follows that lenient decoding on the `specifications` field |
| Base.ParseCriteria | workflows/base.py:95-102 | `parse_criteria` follows that lenient decoding on the `eval_crit_json` field |
| Base.ParseListBothForms | workflows/base.py:86-102 | a list sent structured and the same list sent as text that decodes back parse to the same list |
| Base.CalculateTotalPoints | workflows/base.py:104-108 | the summing loop computes the total of `max_points`, absent values counting 0, and 0 when no criterion has points |
| Base.TotalPointsAppend | workflows/base.py:104-108 | the total is additive over concatenated criteria lists |
| Base.TotalPointsBounds | workflows/base.py:104-108 | with non-negative points the total is non-negative and at least every single criterion's points |
| Base.AppendScoreSummary | workflows/base.py:110-111 | the report is returned unchanged, whatever the criteria |
| Base.CountAssignments | workflows/fill_gaps.py:339-368 | completed is the number of positions whose answer is non-empty and correct the number of those also judged correct, each counted as the size of an independently defined set of positions; so correct ≤ completed ≤ records, none completed exactly when every answer is empty, all completed exactly when none is |
| Base.AnsweredSnoc | workflows/fill_gaps.py:339-354 | appending a record adds its own position to the answered (and answered-correctly) positions exactly when it qualifies, and nothing else |
| Base.AllOrNoneSnoc | workflows/fill_gaps.py:339-343 | a count that grows exactly on answered records keeps "none answered" and "all answered" in step when a record is appended |
| Base.AssignmentEvaluation | workflows/fill_gaps.py:369-443 | the fixed "no completed assignments" text is the instruction exactly when nothing was completed, otherwise the statistics are; the report is the generator's text stripped |
| Classifiers.ShortIndicatorInsideWord | workflows/fill_gaps.py:212-213 | indicators are substring tests, so "I know" is a short reply because "no" occurs inside "know" |
| Classifiers.FourWordsAreNotShort | workflows/fill_gaps.py:213 | any four or more non-empty space-free words joined by spaces are never a short reply, whatever indicators they hold |
| Examination.Step | workflows/examination.py:99-199 | a finished exam is left as it is; past the end the exam finishes; with nothing to judge one open record is appended; otherwise the open record takes the answer and verdict, and a complete answer advances (finishing exactly after the last question), an incomplete one with the budget spent is force-advanced, and one within budget asks a follow-up; the cursor moves by at most one and never back, earlier records never change, and the follow-up budget is respected |
| Examination.RunKeepsInvariants | workflows/examination.py:99-199 | over any conversation the cursor stays within the list, the follow-up count within its budget, the cursor advances at most once per turn, questions never change, and a finished exam stays finished |
| Examination.FreshIsValid | workflows/base.py:73-81 | a freshly created exam satisfies the exam invariant |
| FillGaps.Step | workflows/fill_gaps.py:183-300 | a finished drill is left as it is; at the cap it finishes; a question or short reply touches only the open record's message and reply; a full answer is graded, the cursor moves by one, and the drill finishes exactly at the tenth with the feedback and closing note, otherwise the next assignment is appended; with nothing waiting, an assignment is presented |
| FillGaps.StepKeepsValid | workflows/fill_gaps.py:194-253 | a turn keeps the graded records counting the cursor and at most ten, and a turn that finishes an active drill leaves exactly ten graded records |
| FillGaps.GradingKeepsValid | workflows/fill_gaps.py:232-277 | grading turns the open record graded, and the new record after it is not graded |
| FillGaps.PersistedTextIsYieldedText | workflows/fill_gaps.py:221-300 | unless the drill just finished, the chunks yielded are the stream and what is persisted (tutor reply or next assignment) is their concatenation |
| FillGaps.NeverAnEleventh | workflows/fill_gaps.py:183-300 | over any conversation there are never more than ten graded assignments, and a finished drill stays finished |
| FillGaps.FreshIsValid | workflows/base.py:73-81 | a freshly created drill satisfies the drill invariant |
| FillGaps.Deflects | workflows/fill_gaps.py:207-215 | a question always deflects, and so does a message of at most three words holding a short indicator; beyond three words only a question does; a message with neither kind of indicator never deflects, and a blank one goes on to grading |
| FillGaps.FormatFeedback | workflows/fill_gaps.py:302-313 | all correct gives the fixed praise; otherwise the text opens with the heading and contains a marked line for every error and the judge's feedback after a line break |
| FillGaps.Evaluate | workflows/fill_gaps.py:315-443 | the "no completed assignments" text is used exactly when every answer is empty; otherwise the statistics are the exact number of answered records and of those judged all correct; the report is the generator's text stripped |
| Analogous.Step | workflows/analogous.py:235-385 | a finished session is left as it is and never finishes here otherwise; an empty history gets the seed record; a vague topic is only answered, another message becomes the topic and the first assignment; a message needing help is only answered, another is graded and the next assignment on the first record's topic follows; with nothing waiting, an assignment is presented |
| Analogous.StepKeepsValid | workflows/analogous.py:235-385 | a turn keeps the cursor equal to the number of graded records, and a graded record waits for nothing |
| Analogous.GradingKeepsValid | workflows/analogous.py:329-363 | grading marks the open record graded and waiting for nothing, and appends an ungraded assignment |
| Analogous.NeverFinishesByItself | workflows/analogous.py:235-385 | over any conversation the status never changes, a finished session stays exactly as it is, and the cursor advances at most once per turn |
| Analogous.FreshIsValid | workflows/base.py:73-81 | a freshly created session satisfies the invariant |
| Analogous.StricterThanFillGaps | workflows/analogous.py:302-317 | every message the drill declines to grade is declined here too, whatever the assignment |
| Analogous.RatioTestIsAnalogousOnly | workflows/analogous.py:313-317 | the converse fails: a one-word answer without indicators is graded by the drill but is too short here for any assignment of four words or more |
| Analogous.JazzHasNoIndicator | workflows/analogous.py:302-311 | a witness for the previous row: "jazz" holds no question indicator of the drill and no short-reply indicator |
| Analogous.Evaluate | workflows/analogous.py:400-527 | the "no completed assignments" text is used exactly when every answer is empty; otherwise the statistics are the exact number of answered records and of those judged correct; the report is the generator's text stripped |
| Analogous.VagueTopic | workflows/analogous.py:272-274 | any topic of at most two words is vague, a blank one included, and so is one holding a '?'; from three words on a topic is vague exactly when it holds a '?' |
| Analogous.NeedsHelp | workflows/analogous.py:299-317 | a question always needs help, and so does a message of at most three words holding a short indicator; a message with neither kind of indicator needs help, at any length, exactly when it has under three tenths of the assignment's words; a blank message needs it exactly when the assignment has words |
| Roleplay.UpdateProgress | workflows/roleplay.py:126-136 | on a progress keyword the turn's note is appended and only the last ten kept (the earlier notes in order); otherwise the log is unchanged |
| Roleplay.LimitMatchAtIsRegexMatch | workflows/roleplay.py:148 | the greedy reading succeeds at a position exactly when the limit pattern (digits, then en dashes, hyphens or whitespace, then a unit word) matches there, with the same number and unit |
| Roleplay.GreedyRunsAreForced | workflows/roleplay.py:148 | any match has the longest digit and separator runs, so backtracking never finds another |
| Roleplay.TurnLimit | workflows/roleplay.py:147-155 | with no count in the lower-cased conditions the limit is the default 20 |
| Roleplay.TurnLimitFromFirstMatch | workflows/roleplay.py:147-155 | the limit comes from the leftmost match: twice its minutes but at least 10, or its turns |
| Roleplay.LeadingCount | workflows/roleplay.py:148-154 | conditions that open with digits, separators and a unit take the limit from that count |
| Roleplay.FifteenTurnsLimit | workflows/roleplay.py:148-154 | "15 turns" sets the limit to 15 |
| Roleplay.ThreeMinutesLimit | workflows/roleplay.py:151-152 | "3 хвилини" sets the limit to 10, the minimum |
| Roleplay.FifteenTurns | workflows/roleplay.py:138-184 | with "15 turns" the dialogue does not end at turn 14 (absent a closing phrase or repetition) and always ends at turn 15 |
| Roleplay.NoConfirmationCue | workflows/roleplay.py:169-176 | any conditions that mention neither "finished" nor "phrase", in any letter case, never end the dialogue by confirmation, whatever the student wrote |
| Roleplay.FifteenTurnsNamesNoCue | workflows/roleplay.py:169 | "15 turns" mentions neither "finished" nor "phrase" |
| Roleplay.Confirmed | workflows/roleplay.py:169-176 | exactly when the lower-cased conditions name "finished" or "phrase", the student and one of "підтверд", "скаж", "фраз", and one of the last three messages holds a confirmation word |
| Roleplay.Repeating | workflows/roleplay.py:178-182 | with three or more records, the replies repeat exactly when each of the last three opens with the same fifty characters as the latest |
| Roleplay.ShouldFinish | workflows/roleplay.py:138-184 | never without conditions or before three turns; from then on the turn limit, a closing phrase in the reply, a confirmation asked for and given, or, from the fifth turn, repeated replies each end the dialogue; below the limit and without a closing phrase it ends only by confirmation or repetition |
| Roleplay.RepeatedRepliesFinish | workflows/roleplay.py:178-182 | from the fifth turn, records whose last three replies share their first fifty characters end a dialogue that has conditions |
| Roleplay.RepetitionEndsDialogue | workflows/roleplay.py:105-124 | a turn from the fifth on whose reply opens like the two before it finishes the scenario |
| Roleplay.ConfirmationEndsDialogue | workflows/roleplay.py:169-176 | from the third turn, when the conditions ask the student for a confirmation, a message holding a confirmation word finishes the scenario |
| Roleplay.Step | workflows/roleplay.py:79-124 | a finished scenario is left as it is; otherwise the stream is yielded, exactly one record numbered after the others is appended, the log becomes the earlier log (or an empty one) updated with this turn's number and the concatenated stream, so it grows by the turn's note exactly on progress and stays within ten, nothing else changes, and the scenario finishes exactly when the finish check says so, never without conditions or before three turns |
| Roleplay.StepKeepsValid | workflows/roleplay.py:105-136 | a turn keeps the records numbered 1, 2, … and the log at most ten notes |
| Roleplay.StepKeepsNumbering | workflows/roleplay.py:105-111 | the appended record is numbered one past the records before it |
| Roleplay.RunKeepsInvariants | workflows/roleplay.py:79-124 | over any conversation the numbering and log bound hold, a finished scenario stays as it is, and without conditions it never ends and gains one record per turn |
| Roleplay.FreshIsValid | workflows/base.py:73-81 | a fresh scenario satisfies the invariant |
| Reflection.UpdatePhaseAndData | workflows/reflection.py:246-300 | the phase never moves back; without a time-out or wrap-up it moves by one exactly when the reply closes it; a time-out or wrap-up jumps to the summary; the session finishes exactly on a turn that began in the summary; only the current phase's data changes, gaining the non-empty message and the completion mark |
| Reflection.Step | workflows/reflection.py:202-244 | a finished session is left as it is; otherwise the stream is yielded, one record tagged with the entry phase is appended, the phase data is `_update_phase_and_data`'s result with the new record counted, the phase never moves back, and the session finishes exactly when the turn began in the summary |
| Reflection.StepKeepsValid | workflows/reflection.py:231-238 | a turn keeps the phase tags ordered and no later than the current phase |
| Reflection.RunKeepsInvariants | workflows/reflection.py:202-300 | over any conversation the tags stay ordered, the phase never moves back, and a finished session stays as it is |
| Reflection.Closes | workflows/reflection.py:256-284 | an empty reply closes no phase, and aspiration closes only on a reply naming "сильних сторін"; the phrase sets of all three phases are stated per turn by the three transition lemmas |
| Reflection.TimeUp | workflows/reflection.py:291-297 | the time box never runs out before the eighth record and only if it names 10 or 20; one naming 10 has run out from the eighth record on, and one naming only 20 runs out exactly from the fifteenth |
| Reflection.WrapUpAsked | workflows/reflection.py:299 | a message asks to wrap up exactly when its lower-cased form holds "завершуй" or "закінчи"; a message shorter than "закінчи" never does |
| Reflection.AbsentTimeboxNeverTimesOut | workflows/reflection.py:291-297 | without a `timebox` entry the time box never forces the summary, however many records there are |
| Reflection.FreshIsValid | workflows/base.py:73-81 | a fresh session satisfies the invariant |
| Reflection.NoFinishOnFirstTurn | workflows/reflection.py:215-289 | a fresh session cannot finish on its first turn |
| Reflection.FirstPhaseTransition | workflows/reflection.py:215-260 | a session without a phase starts in aspiration; barring time-out or wrap-up it moves to strengths exactly when the reply holds both "перейдемо до" and "сильних сторін", which also marks aspiration complete |
| Reflection.StrengthsTransition | workflows/reflection.py:262-273 | barring time-out or wrap-up, strengths moves to feed-forward exactly when the reply holds "наступні кроки" or "визначимо конкретні", which also marks strengths complete; the message is collected either way |
| Reflection.FeedForwardTransition | workflows/reflection.py:275-286 | barring time-out or wrap-up, feed-forward moves to the summary exactly when the reply holds "підсумок" or "продуктивну сесію", which also marks it complete; the message is collected either way |
| Reflection.WrapUpOrTimeUpJumpsToSummary | workflows/reflection.py:291-300 | a wrap-up request, or a time box run out with the new record counted, sends a session not yet in the summary there at once, without finishing it |
| Reflection.WrapUpRequestEndsInSummary | workflows/reflection.py:299-300 | a turn whose message holds "завершуй" or "закінчи", in any letter case, leaves the session in the summary phase, whatever phase it began in |
| Reflection.TenMinuteBoxEndsInSummary | workflows/reflection.py:291-294 | with a time box naming 10, the turn that brings the session to eight records or more leaves it in the summary phase |
| Custom.Step | workflows/custom.py:43-77 | a finished chat is left as it is; otherwise the reply is the generator's text and exactly one exchange is appended, nothing else changing |
| Custom.RunAppends | workflows/custom.py:70-75 | over any conversation the history is kept and the k-th turn's exchange lands k places after it |
| Custom.SpecsText | workflows/custom.py:53-62 | the specifications section is empty exactly when there are no specifications and otherwise starts with its header |
| Custom.SpecsTextSnoc | workflows/custom.py:57-62 | each further specification adds exactly its own lines |
| Custom.OneEntrySpecText | workflows/custom.py:58-60 | an object with one entry renders as `key: value` on one line |
| Custom.SpecDictSnoc | workflows/custom.py:58-60 | each further entry of an object adds exactly its own `key: value` line, after the earlier ones |
| Custom.OtherSpecText | workflows/custom.py:61-62 | any other value renders as itself on one line |
| Custom.ConversationText | workflows/custom.py:111-117 | the listing loop builds one block per exchange, in order |
| Custom.BlocksAreNumbered | workflows/custom.py:113-114 | the k-th block starts with the heading of exchange k + 1 |
| Registry.GetWorkflowClass | workflows/__init__.py:20-30 | a workflow is found exactly for ids 12 and 25–29, and it is the one registered under that id |
| Registry.RegistryIsBijective | workflows/__init__.py:20-27 | a lookup gives a workflow exactly when that workflow's id was looked up |
| Registry.TemplateIdsDistinct | workflows/__init__.py:20-27 | distinct workflows have distinct ids |
| Registry.DispatchFor | main.py:56-77 | the message endpoint runs a workflow exactly when one is registered under the id and overrides `run_workflow`; a registered streaming workflow fails on instantiation; an unregistered id raises the 400 with "No workflow found for template <id>"; every failure leaves the endpoint as a 500 |
| Registry.EndpointRunsThreeTemplates | main.py:56-62 | the message endpoint runs a workflow for exactly the ids 12, 25 and 29, and fails for 26–28 |
| Strings.Drain | workflows/fill_gaps.py:221-226 | the buffering loop ends holding the concatenation of the chunks in order |
| Strings.Strip | workflows/analogous.py:272 | `strip()`: the text without leading and trailing whitespace, empty exactly when all is whitespace |
| Strings.WordCountIsCountStarts | workflows/analogous.py:313-314 | `len(s.split())` equals the independent count of word starts |
| Strings.WordCountCons | workflows/analogous.py:274 | a word followed by a space adds one word |
| Strings.WordCountJoin | workflows/fill_gaps.py:213 | words without spaces joined by single spaces split back into exactly that many words |
| Strings.JoinHasParts | workflows/fill_gaps.py:313 | a joined text starts with its first part and contains every part |
| Strings.Leftmost | workflows/roleplay.py:148 | the search returns the first position where a match succeeds, and no match before it |
| XanoClient.Search | xano_client.py:89 | `re.search` gives nothing exactly when no position matches, and otherwise the match at the first position where the pattern matches |
| XanoClient.ScoresFromFirstUsable | xano_client.py:88-99 | for any pattern list there is a score exactly when some pattern's leftmost match has a positive denominator, and it is the numerator of the first such pattern |
| XanoClient.ExtractScore | xano_client.py:81-99 | the same for the three report patterns: a score exactly when one of them gives one, taken from the first that does |
| XanoClient.FooterMatchesAfter | xano_client.py:83-89 | a footer `label n/m` after any text is matched where it begins, with the numbers n and m |
| XanoClient.BoldFooterEndsReport | xano_client.py:83-95 | a report without a colon followed by "**Total Score:** n/m" with m > 0 scores n |
| XanoClient.ExtractFrom | xano_client.py:88-99 | a score comes only from a pattern that matches; none when no pattern matches; the first pattern's match with a positive denominator gives its numerator |
| XanoClient.ExtractSkips | xano_client.py:88-97 | a pattern with no match or a zero denominator hands the text to the next pattern |
| XanoClient.LastOfThree | xano_client.py:88-97 | when the first two patterns give nothing, the third decides |
| XanoClient.NoColonNoScore | xano_client.py:81-99 | a report without a colon has no score |
| XanoClient.NumberOfDigits | xano_client.py:83 | a digit string not followed by a digit or dot is read as its value |
| XanoClient.FooterMatches | xano_client.py:83-85 | a footer `label n/m` at the start of the text is matched with the numbers n and m |
| XanoClient.BoldFooterRoundTrip | xano_client.py:83-95 | "**Total Score:** n/m" with m > 0 scores n |
| XanoClient.FractionalScore | xano_client.py:84-95 | "Total Score: 7.5/10" scores 7.5 |
| XanoClient.UkrainianFooterRoundTrip | xano_client.py:85-95 | "Загальна оцінка: n/m" with m > 0 scores n |
| XanoClient.ZeroDenominatorFallsThrough | xano_client.py:88-99 | a plain footer with a zero denominator gives no score, even when a valid plain footer follows it |
| XanoClient.UpdateChatStatus | xano_client.py:101-118 | the request carries the status value exactly when one is given, the report exactly when one is given, a grade exactly when one can be read from the report, and the last message id exactly when it is given and non-zero |
| XanoClient.LoadField | xano_client.py:40-42 | a text field is decoded, a structured one passes through, an absent one takes the default |
| XanoClient.Load | xano_client.py:34-46 | no row gives no state; a row gives a state exactly when every serialized field decodes; the collections are the decoded fields and the six scalar fields are copied |
| XanoClient.Save | xano_client.py:48-59 | every collection field is stored as the text its codec encodes, and the six scalar fields (ids, index, follow-up count and budget, status) are copied |
| XanoClient.SaveLoadRoundTrip | xano_client.py:34-59 | with codecs that round-trip, loading a saved state gives it back |
| XanoClient.StructuredRowLoadsAsSaved | xano_client.py:40-42 | a row with structured fields loads like its saved text form |

## Left out

- Prompt construction and the agent library are left out. The instruction texts, the
  agent factories and the evaluation prompts are business text. Every generated text,
  stream and structured verdict is an input of the model.
- Timestamps (`datetime.now()`) are inputs. Where the code reads the clock twice in one
  turn (workflows/examination.py:132 and :160, workflows/fill_gaps.py:233 and :271,
  workflows/analogous.py:330 and :355), one `now` stamps both records, so the model
  does not distinguish the two readings. The random choice of a feedback line in
  Analogous's tutor prompt (workflows/analogous.py:110-111) is prompt text and is not
  modelled.
- Registry.DispatchFor: the text of the 500's detail (`str(e)` of the caught exception)
  is not modelled. The model records which failure was caught: the 400 with its detail,
  or the class that cannot be instantiated.
- Transport is left out. HTTP calls, the other Xano endpoints (block, template,
  session, messages, message pairs), `main.py`'s routes and logging are input and
  output. Only the dispatch decision of the message endpoint is modelled.
- Streaming is modelled as a finite sequence of chunks. Concurrency between requests
  for one session is not modelled.
- The save and status-update calls inside a turn are not modelled as effects. A turn
  returns the state that is saved. Whether the session is marked finished can be read
  off its status.
- JSON encoding and decoding are abstract codecs. A codec's round trip is an
  assumption of `XanoClient.SaveLoadRoundTrip`, not something proved. Pydantic
  validation of a loaded row is not modelled.
- Custom data is a record with one optional slot per key the workflows use. An
  unrecognised stored phase string is not modelled, so a phase is always one of the
  four.
- Base.CalculateTotalPoints: a criterion's `max_points` is modelled as an integer or
  absent. The code sums whatever the decoded JSON holds (workflows/base.py:104-108): a
  float adds as a float, so the total the evaluation prompts quote can be 12.5, and a
  `null` or string value raises `TypeError`. Neither case is modelled.
- Specification values are modelled as strings, and a decoded `specifications` value as
  a list. A numeric `timebox` would raise `TypeError` at workflows/reflection.py:292. A
  `null` or `0` `finish_dialogue_conditions` counts as absent at
  workflows/roleplay.py:139. A `specifications` value that is neither text nor a list,
  or text that decodes to an object, is returned unchanged at workflows/base.py:87-93,
  after which `specifications[0]` fails. None of these is modelled.
- A first specification that is not a JSON object reads as having no keys. With
  duplicate keys, `Base.Lookup` returns the first entry; JSON objects have unique
  keys.
- Examination's, Roleplay's and Reflection's evaluations are left out. Each is prompt
  assembly followed by one generation call. So is the accuracy-rate formatting of the
  assignment evaluations.
- Analogous's `_format_feedback` (workflows/analogous.py:387-398) is left out
  because nothing calls it.
- `models.py` is reduced to the `ChatStatus` values.
- XanoClient.ExtractScore: the score is the exact decimal read from the report. The
  final `round(score, 2)` to a float is not modelled. Neither are the `ValueError`
  and `ZeroDivisionError` handlers: `float` cannot fail on what the patterns match.
- Classifiers.SeemsIncomplete: `answer_words < assignment_words * 0.3` is modelled in
  exact arithmetic as `10 * a < 3 * b`. It can differ from floating point only where
  `b * 0.3` rounds above an exact integer.
- Strings.IsDigit: `\d` is restricted to ASCII digits. Python also matches other
  Unicode decimal digits.
- Strings.Lower: lower-casing covers ASCII letters and the Cyrillic letters Ukrainian
  uses. Other characters are left as they are.

=== FILE: analogous.dfy ===
/** The analogous-assignments workflow: the student first names a topic, then works
    through an unbounded series of assignments on it. A reply is graded only when it is
    not a question, not a short reply and not too short for the assignment. One call of
    `Step` is one `run_workflow`; the generator's text and the evaluator's verdict are
    inputs. The workflow itself never finishes a session. */
module Analogous {
  import opened Maybe
  import opened Strings
  import opened Base
  import opened Classifiers
  import FillGaps

  /** The evaluator's structured verdict. */
  datatype Verdict = Verdict(correct: bool, errors: seq<string>, feedback: string)

  /** One record: the first one negotiates the topic, later ones are assignments. The
      waiting flags stand for keys that may be absent, absent reading as false. */
  datatype AnalogousRecord = AnalogousRecord(
    assignmentIndex: int,
    topic: string,
    assignment: string,
    answer: string,
    timestamp: string,
    graded: bool,
    waitingForTopic: bool,
    waitingForAnswer: bool,
    userMessage: string,
    tutorResponse: string,
    evaluation: Option<Verdict>)

  type AnalogousState = WorkflowState<AnalogousRecord>

  /** The question indicators: those of the fill-in-the-gaps drill, then English and
      Ukrainian additions. */
  const QuestionIndicators: seq<string> :=
    FillGaps.QuestionIndicators +
    ["mean", "clarify",
     "не розумію", "поясни", "що", "як", "чому", "допоможи", "розкажи",
     "не зрозумів", "не зрозуміла", "шо", "допоможіть", "підкажи"]

  const AlreadyFinishedReply := "Assignments завершено. Дякую за роботу!"

  /** The record created for an empty history: it waits for the topic, and the
      generator's opening text is stored as its assignment. */
  function Seed(now: string, generated: string): AnalogousRecord {
    AnalogousRecord(0, "", generated, "", now, false, true, false, "", "", None)
  }

  /** A fresh assignment on `topic`, waiting for its answer. */
  function NewAssignment(index: int, topic: string, text: string, now: string): AnalogousRecord {
    AnalogousRecord(index, topic, text, "", now, false, false, true, "", "", None)
  }

  /** The stripped message is too vague to be a topic: at most two words, or a question.
      Any message of at most two words is vague, a blank one included, and from three
      words on only a '?' makes a topic vague. */
  function VagueTopic(userMessage: string): (b: bool)
    ensures Strip(userMessage) == "" ==> b
    ensures WordCount(Strip(userMessage)) <= 2 ==> b
    ensures Contains(Strip(userMessage), "?") ==> b
    ensures WordCount(Strip(userMessage)) >= 3 ==> (b <==> Contains(Strip(userMessage), "?"))
  {
    var topic := Strip(userMessage);
    BlankHoldsNothing([]);
    WordCount(topic) <= 2 || Contains(topic, "?")
  }

  /** The stripped message is a question, a short reply, or has fewer than three tenths
      of the assignment's word count. A question always needs help, and so does a
      message of at most three words holding a short indicator; a blank message needs
      it exactly when the assignment has words; beyond three words a message without a
      question indicator needs help exactly when it is too short, and so, at any length,
      does a message with neither kind of indicator. */
  function NeedsHelp(userMessage: string, assignment: string): (b: bool)
    ensures IsQuestion(Strip(userMessage), QuestionIndicators) ==> b
    ensures WordCount(Strip(userMessage)) <= 3 && ContainsAny(Lower(Strip(userMessage)), ShortIndicators) ==> b
    ensures !IsQuestion(Strip(userMessage), QuestionIndicators) && !ContainsAny(Lower(Strip(userMessage)), ShortIndicators) ==>
              (b <==> SeemsIncomplete(WordCount(Strip(userMessage)), WordCount(assignment)))
    ensures Strip(userMessage) == "" ==> (b <==> WordCount(assignment) > 0)
    ensures WordCount(Strip(userMessage)) > 3 && !IsQuestion(Strip(userMessage), QuestionIndicators) ==>
              (b <==> SeemsIncomplete(WordCount(Strip(userMessage)), WordCount(assignment)))
  {
    var m := Strip(userMessage);
    BlankHoldsNothing(QuestionIndicators);
    BlankHoldsNothing(ShortIndicators);
    || IsQuestion(m, QuestionIndicators)
    || IsShortResponse(m)
    || SeemsIncomplete(WordCount(m), WordCount(assignment))
  }

  /** The number of graded records. */
  function GradedCount(rs: seq<AnalogousRecord>): nat {
    if |rs| == 0 then 0 else GradedCount(rs[..|rs| - 1]) + if Last(rs).graded then 1 else 0
  }

  lemma GradedCountSetLast(rs: seq<AnalogousRecord>, x: AnalogousRecord)
    requires |rs| > 0
    ensures GradedCount(SetLast(rs, x))
            == GradedCount(rs) - (if Last(rs).graded then 1 else 0) + (if x.graded then 1 else 0)
  {
    assert SetLast(rs, x)[..|rs| - 1] == rs[..|rs| - 1];
  }

  lemma GradedCountAppend(rs: seq<AnalogousRecord>, x: AnalogousRecord)
    ensures GradedCount(rs + [x]) == GradedCount(rs) + if x.graded then 1 else 0
  {
    assert (rs + [x])[..|rs|] == rs;
  }

  /** The states reachable from creation: the cursor counts the graded assignments, and
      a graded record waits for nothing. */
  predicate Valid(st: AnalogousState) {
    && st.index == GradedCount(st.answers)
    && forall k :: 0 <= k < |st.answers| ==>
         st.answers[k].graded ==> !st.answers[k].waitingForTopic && !st.answers[k].waitingForAnswer
  }

  /** One `run_workflow` turn. */
  function Step(st: AnalogousState, userMessage: string, now: string, generated: string, verdict: Verdict): (r: Turn<AnalogousRecord>)
    // A finished session replies with a fixed text and is left as it is.
    ensures st.status == Finished ==> r == Turn(st, AlreadyFinishedReply)
    // Otherwise the generator's text is the reply, and the session never finishes here.
    ensures st.status == Active ==> r.reply == generated && r.state.status == Active
    ensures && r.state.ubId == st.ubId && r.state.blockId == st.blockId
            && r.state.questions == st.questions && r.state.customData == st.customData
            && r.state.followUpCount == st.followUpCount && r.state.maxFollowUps == st.maxFollowUps
    ensures st.index <= r.state.index <= st.index + 1
    ensures |st.answers| <= |r.state.answers| <= |st.answers| + 1
    ensures |st.answers| > 0 ==> r.state.answers[..|st.answers| - 1] == st.answers[..|st.answers| - 1]
    // An empty history gets exactly the seed record.
    ensures st.status == Active && st.answers == [] ==>
              r.state == st.(answers := [Seed(now, generated)])
    // Waiting for the topic: a vague message is only answered ...
    ensures st.status == Active && st.answers != [] && Last(st.answers).waitingForTopic && VagueTopic(userMessage) ==>
              r.state == st.(answers := SetLast(st.answers,
                               Last(st.answers).(userMessage := userMessage, tutorResponse := generated)))
    // ... and any other message becomes the topic, and the record turns into the first assignment.
    ensures st.status == Active && st.answers != [] && Last(st.answers).waitingForTopic && !VagueTopic(userMessage) ==>
              r.state == st.(answers := SetLast(st.answers,
                               Last(st.answers).(topic := Strip(userMessage), waitingForTopic := false,
                                                 waitingForAnswer := true, assignment := generated)))
    // Waiting for an answer: a message that needs help is only answered ...
    ensures && st.status == Active && st.answers != [] && !Last(st.answers).waitingForTopic
            && Last(st.answers).waitingForAnswer && NeedsHelp(userMessage, Last(st.answers).assignment) ==>
              r.state == st.(answers := SetLast(st.answers,
                               Last(st.answers).(userMessage := userMessage, tutorResponse := generated)))
    // ... and any other message is graded; the next assignment, on the first record's topic, follows.
    ensures && st.status == Active && st.answers != [] && !Last(st.answers).waitingForTopic
            && Last(st.answers).waitingForAnswer && !NeedsHelp(userMessage, Last(st.answers).assignment) ==>
              && r.state.index == st.index + 1
              && |r.state.answers| == |st.answers| + 1
              && r.state.answers[|st.answers| - 1]
                 == Last(st.answers).(answer := userMessage, timestamp := now, waitingForAnswer := false,
                                      evaluation := Some(verdict), graded := true)
              && Last(r.state.answers) == NewAssignment(st.index + 1, st.answers[0].topic, generated, now)
    // Waiting for nothing: the current assignment is presented afresh.
    ensures && st.status == Active && st.answers != [] && !Last(st.answers).waitingForTopic
            && !Last(st.answers).waitingForAnswer ==>
              r.state == st.(answers := st.answers + [NewAssignment(st.index, st.answers[0].topic, generated, now)])
  {
    if st.status == Finished then Turn(st, AlreadyFinishedReply)
    else if st.answers == [] then Turn(st.(answers := [Seed(now, generated)]), generated)
    else
      var last := Last(st.answers);
      if last.waitingForTopic then
        if VagueTopic(userMessage) then
          Turn(st.(answers := SetLast(st.answers, last.(userMessage := userMessage, tutorResponse := generated))), generated)
        else
          Turn(st.(answers := SetLast(st.answers, last.(topic := Strip(userMessage), waitingForTopic := false,
                                                        waitingForAnswer := true, assignment := generated))),
               generated)
      else if last.waitingForAnswer then
        if NeedsHelp(userMessage, last.assignment) then
          Turn(st.(answers := SetLast(st.answers, last.(userMessage := userMessage, tutorResponse := generated))), generated)
        else
          var graded := last.(answer := userMessage, timestamp := now, waitingForAnswer := false,
                              evaluation := Some(verdict), graded := true);
          var st1 := st.(answers := SetLast(st.answers, graded), index := st.index + 1);
          var added := NewAssignment(st1.index, st1.answers[0].topic, generated, now);
          Turn(st1.(answers := st1.answers + [added]), generated)
      else
        var added := NewAssignment(st.index, st.answers[0].topic, generated, now);
        Turn(st.(answers := st.answers + [added]), generated)
  }

  /** A turn keeps the cursor counting the graded records: only grading adds one to
      both, and every record it touches or adds waits for nothing only if graded. */
  lemma StepKeepsValid(st: AnalogousState, userMessage: string, now: string, generated: string, verdict: Verdict)
    requires Valid(st)
    ensures Valid(Step(st, userMessage, now, generated, verdict).state)
  {
    if st.status == Active && st.answers != [] {
      var last := Last(st.answers);
      var r := Step(st, userMessage, now, generated, verdict);
      if last.waitingForTopic || (last.waitingForAnswer && NeedsHelp(userMessage, last.assignment)) {
        GradedCountSetLast(st.answers, Last(r.state.answers));
      } else if last.waitingForAnswer {
        GradingKeepsValid(st, userMessage, now, generated, verdict);
      } else {
        GradedCountAppend(st.answers, Last(r.state.answers));
      }
    }
  }

  /** The grading turn of `StepKeepsValid`: the open record becomes graded and waits for
      nothing, and the new assignment after it is not graded. */
  lemma GradingKeepsValid(st: AnalogousState, userMessage: string, now: string, generated: string, verdict: Verdict)
    requires Valid(st) && st.status == Active && st.answers != []
    requires !Last(st.answers).waitingForTopic && Last(st.answers).waitingForAnswer
    requires !NeedsHelp(userMessage, Last(st.answers).assignment)
    ensures Valid(Step(st, userMessage, now, generated, verdict).state)
  {
    var r := Step(st, userMessage, now, generated, verdict);
    var graded := r.state.answers[|st.answers| - 1];
    GradedCountSetLast(st.answers, graded);
    assert r.state.answers == SetLast(st.answers, graded) + [Last(r.state.answers)];
    GradedCountAppend(SetLast(st.answers, graded), Last(r.state.answers));
  }

  /** The inputs of one turn. */
  datatype Input = Input(userMessage: string, now: string, generated: string, verdict: Verdict)

  function Run(st: AnalogousState, inputs: seq<Input>): AnalogousState
    decreases |inputs|
  {
    if |inputs| == 0 then st
    else
      var i := inputs[0];
      Run(Step(st, i.userMessage, i.now, i.generated, i.verdict).state, inputs[1..])
  }

  /** However long the conversation, an active session stays active, a finished one stays
      as it is, and the cursor keeps counting the graded assignments. */
  lemma {:induction false} NeverFinishesByItself(st: AnalogousState, inputs: seq<Input>)
    requires Valid(st)
    ensures Valid(Run(st, inputs))
    ensures Run(st, inputs).status == st.status
    ensures st.status == Finished ==> Run(st, inputs) == st
    ensures st.index <= Run(st, inputs).index <= st.index + |inputs|
    decreases |inputs|
  {
    if |inputs| > 0 {
      var i := inputs[0];
      StepKeepsValid(st, i.userMessage, i.now, i.generated, i.verdict);
      NeverFinishesByItself(Step(st, i.userMessage, i.now, i.generated, i.verdict).state, inputs[1..]);
    }
  }

  lemma FreshIsValid(ubId: int, blockId: int, specs: seq<Spec>)
    ensures Valid(NewState(ubId, blockId, specs))
  {
  }

  /** Every message the fill-in-the-gaps drill declines to grade is declined here too,
      whatever the assignment: the indicator lists extend the drill's. */
  lemma StricterThanFillGaps(userMessage: string, assignment: string)
    ensures FillGaps.Deflects(userMessage) ==> NeedsHelp(userMessage, assignment)
  {
    var m := Lower(Strip(userMessage));
    if ContainsAny(m, FillGaps.QuestionIndicators) {
      var k :| 0 <= k < |FillGaps.QuestionIndicators| && Contains(m, FillGaps.QuestionIndicators[k]);
      assert QuestionIndicators[k] == FillGaps.QuestionIndicators[k];
    }
  }

  /** The converse fails: the length-ratio test is Analogous' own. A one-word answer with
      no indicator in it is graded by the drill, but here it is too short for any
      assignment of four words or more. */
  lemma RatioTestIsAnalogousOnly(answer: string, assignment: string)
    requires |answer| > 0 && NoSpace(answer)
    requires !ContainsAny(Lower(answer), FillGaps.QuestionIndicators)
    requires !ContainsAny(Lower(answer), ShortIndicators)
    requires WordCount(assignment) >= 4
    ensures !FillGaps.Deflects(answer)
    ensures NeedsHelp(answer, assignment)
  {
    assert StripStart(answer) == 0;
    assert Strip(answer) == answer;
    WordCountCons(answer, "");
  }

  /** An answer that meets the conditions above: no indicator of the drill occurs in "jazz". */
  lemma JazzHasNoIndicator()
    ensures Lower("jazz") == "jazz"
    ensures !ContainsAny(Lower("jazz"), FillGaps.QuestionIndicators)
    ensures !ContainsAny(Lower("jazz"), ShortIndicators)
  {
    NoFirstCharOccurs("jazz", FillGaps.QuestionIndicators);
    NoFirstCharOccurs("jazz", ShortIndicators);
  }

  /** A record's answer, as the evaluation reads it. */
  function AnswerOf(r: AnalogousRecord): string
  {
    r.answer
  }

  /** Whether a record's evaluation says the answer is correct; an unevaluated record is not correct. */
  predicate JudgedCorrect(r: AnalogousRecord)
  {
    r.evaluation.Some? && r.evaluation.value.correct
  }

  /** `run_evaluation`'s statistics and instructions: the tally counts the records
      with a non-empty answer, and among them those judged correct. */
  function Evaluate(st: AnalogousState, generated: string): (e: EvaluationCall)
    ensures e.report == Strip(generated)
    ensures e.instructions == Literal(NoCompletedAssignments) <==>
              forall k :: 0 <= k < |st.answers| ==> st.answers[k].answer == ""
    ensures e.instructions.GradingPrompt? ==>
              e.instructions.tally.completed == |Answered(st.answers, AnswerOf)| &&
              e.instructions.tally.correct == |AnsweredCorrectly(st.answers, AnswerOf, JudgedCorrect)|
    ensures e.instructions.GradingPrompt? ==>
              e.instructions.tally.correct <= e.instructions.tally.completed <= |st.answers|
  {
    var t := CountAssignments(st.answers, AnswerOf, JudgedCorrect);
    AssignmentEvaluation(t, generated)
  }
}

=== FILE: base.dfy ===
/** The session state every workflow shares and the lifecycle operations of the base
    workflow: load-or-create against the state store, lenient decoding of the block's
    specification and criteria lists, and the points total used in report footers. */
module Base {
  import opened Maybe
  import opened Strings

  // ---------------------------------------------------------------------------
  // Data model
  // ---------------------------------------------------------------------------

  /** The `status` field: the code only ever compares it with "finished". */
  datatype Status = Active | Finished

  /** One entry of a block's specification list: a JSON object, kept as its key/value
      pairs in order (values already rendered as text), or any other JSON value, kept
      as its text. */
  datatype Spec = SpecDict(entries: seq<(string, string)>) | SpecOther(text: string)

  /** One evaluation criterion; every key may be absent. */
  datatype Criterion = Criterion(
    name: Option<string>,
    maxPoints: Option<int>,
    summaryInstructions: Option<string>,
    gradingInstructions: Option<string>)

  /** The Reflection workflow's phases, in the order they are visited. */
  datatype Phase = Aspiration | Strengths | FeedForward | Summary {
    function Rank(): nat {
      match this
      case Aspiration => 0
      case Strengths => 1
      case FeedForward => 2
      case Summary => 3
    }
  }

  /** What Reflection collects in one phase: the coachee's messages and whether the
      coach signalled the phase complete. */
  datatype PhaseData = PhaseData(responses: seq<string>, completed: bool)

  const NoPhaseData := PhaseData([], false)

  /** The `custom_data` bag, with one optional slot per key a workflow uses. */
  datatype CustomData = CustomData(
    progressNotes: Option<seq<string>>,
    phase: Option<Phase>,
    aspiration: Option<PhaseData>,
    strengths: Option<PhaseData>,
    feedForward: Option<PhaseData>)

  /** `{}` */
  const NoCustomData := CustomData(None, None, None, None, None)

  /** `WorkflowState`: one conversation's progress. `A` is the workflow's turn record. */
  datatype WorkflowState<A> = WorkflowState(
    ubId: int,
    blockId: int,
    index: int,
    questions: seq<Spec>,
    answers: seq<A>,
    followUpCount: int,
    maxFollowUps: int,
    status: Status,
    customData: CustomData)

  /** What a non-streaming turn produces: the state to persist and the reply. */
  datatype Turn<A> = Turn(state: WorkflowState<A>, reply: string)

  /** What a streaming turn produces: the state to persist and the chunks yielded. */
  datatype StreamTurn<A> = StreamTurn(state: WorkflowState<A>, yielded: seq<string>)

  function Last<A>(xs: seq<A>): A
    requires |xs| > 0
  {
    xs[|xs| - 1]
  }

  /** `xs[-1] = x`: the record list with its last record replaced. */
  function SetLast<A>(xs: seq<A>, x: A): (r: seq<A>)
    requires |xs| > 0
    ensures |r| == |xs| && Last(r) == x && r[..|r| - 1] == xs[..|xs| - 1]
  {
    xs[|xs| - 1 := x]
  }

  // ---------------------------------------------------------------------------
  // Specification lookups
  // ---------------------------------------------------------------------------

  /** `spec.get(key, default)` on one specification object. */
  function Lookup(entries: seq<(string, string)>, key: string, default: string): (v: string)
    ensures (forall k :: 0 <= k < |entries| ==> entries[k].0 != key) ==> v == default
    ensures (exists k :: 0 <= k < |entries| && entries[k].0 == key) ==>
              exists k :: 0 <= k < |entries| && entries[k] == (key, v)
  {
    if |entries| == 0 then default
    else if entries[0].0 == key then entries[0].1
    else
      var v := Lookup(entries[1..], key, default);
      assert forall k :: 1 <= k < |entries| ==> entries[k] == entries[1..][k - 1];
      v
  }

  /** `specifications[0] if specifications else {}`. */
  function FirstSpec(specs: seq<Spec>): seq<(string, string)> {
    if |specs| > 0 && specs[0].SpecDict? then specs[0].entries else []
  }

  // ---------------------------------------------------------------------------
  // load_or_create_state
  // ---------------------------------------------------------------------------

  /** A state freshly created for a session. */
  function NewState<A>(ubId: int, blockId: int, specs: seq<Spec>): WorkflowState<A> {
    WorkflowState(ubId, blockId, 0, specs, [], 0, 3, Active, NoCustomData)
  }

  /** The outcome of `load_or_create_state`: the state, the store afterwards, and whether
      a save was issued. */
  datatype Loaded<A> = Loaded(state: WorkflowState<A>, store: map<int, WorkflowState<A>>, saved: bool)

  /** Returns the stored state of the session, or creates, saves and returns a fresh one. */
  function LoadOrCreate<A>(store: map<int, WorkflowState<A>>, ubId: int, blockId: int, specs: seq<Spec>): (r: Loaded<A>)
    ensures ubId in store ==> r.state == store[ubId] && r.store == store && !r.saved
    ensures ubId !in store ==>
              && r.saved
              && r.store == store[ubId := r.state]
              && r.state.ubId == ubId && r.state.blockId == blockId
              && r.state.index == 0 && r.state.questions == specs && r.state.answers == []
              && r.state.followUpCount == 0 && r.state.maxFollowUps == 3
              && r.state.status == Active && r.state.customData == NoCustomData
    ensures ubId in r.store && r.store[ubId] == r.state
  {
    if ubId in store then Loaded(store[ubId], store, false)
    else
      var st := NewState(ubId, blockId, specs);
      Loaded(st, store[ubId := st], true)
  }

  /** Two consecutive calls with nothing in between return the same state, and the
      second one neither creates nor saves. */
  lemma LoadOrCreateIdempotent<A>(store: map<int, WorkflowState<A>>, ubId: int, blockId: int, specs: seq<Spec>)
    ensures var first := LoadOrCreate(store, ubId, blockId, specs);
            var second := LoadOrCreate(first.store, ubId, blockId, specs);
            second.state == first.state && second.store == first.store && !second.saved
  {
  }

  // ---------------------------------------------------------------------------
  // parse_specifications / parse_criteria
  // ---------------------------------------------------------------------------

  /** A block field that may be absent, hold serialized text, or hold the value itself. */
  datatype Field<T> = Missing | Text(raw: string) | Value(value: T)

  /** The block fields the base workflow reads. */
  datatype Block = Block(specifications: Field<seq<Spec>>, evalCritJson: Field<seq<Criterion>>)

  /** The lenient list decoding shared by both parsers: absent gives `[]`, text is
      decoded with `[]` on failure, anything else is passed through. */
  function ParseList<T>(f: Field<seq<T>>, decode: string -> Option<seq<T>>): (r: seq<T>)
    ensures f.Missing? ==> r == []
    ensures f.Value? ==> r == f.value
    ensures f.Text? && decode(f.raw).Some? ==> r == decode(f.raw).value
    ensures f.Text? && decode(f.raw).None? ==> r == []
  {
    match f
    case Missing => []
    case Text(raw) => decode(raw).GetOr([])
    case Value(v) => v
  }

  /** `parse_specifications`: the block's `specifications`, decoded leniently. */
  function ParseSpecifications(block: Block, decode: string -> Option<seq<Spec>>): (r: seq<Spec>)
    ensures block.specifications.Missing? ==> r == []
    ensures block.specifications.Value? ==> r == block.specifications.value
    ensures block.specifications.Text? ==>
              r == if decode(block.specifications.raw).Some? then decode(block.specifications.raw).value else []
  {
    ParseList(block.specifications, decode)
  }

  /** `parse_criteria`: the block's `eval_crit_json`, decoded leniently. */
  function ParseCriteria(block: Block, decode: string -> Option<seq<Criterion>>): (r: seq<Criterion>)
    ensures block.evalCritJson.Missing? ==> r == []
    ensures block.evalCritJson.Value? ==> r == block.evalCritJson.value
    ensures block.evalCritJson.Text? ==>
              r == if decode(block.evalCritJson.raw).Some? then decode(block.evalCritJson.raw).value else []
  {
    ParseList(block.evalCritJson, decode)
  }

  /** A list that reaches the parser already structured, or as text its codec decodes
      back, parses to the same list. */
  lemma ParseListBothForms<T>(v: seq<T>, encode: seq<T> -> string, decode: string -> Option<seq<T>>)
    requires decode(encode(v)) == Some(v)
    ensures ParseList(Text(encode(v)), decode) == ParseList(Value(v), decode) == v
  {
  }

  // ---------------------------------------------------------------------------
  // _calculate_total_points / _append_score_summary
  // ---------------------------------------------------------------------------

  /** The points a criterion contributes: its `max_points`, or 0 when absent. */
  function PointsOf(c: Criterion): int {
    c.maxPoints.GetOr(0)
  }

  /** The sum of `max_points` over the criteria, absent values counting as 0. */
  function TotalPoints(criteria: seq<Criterion>): int {
    if |criteria| == 0 then 0
    else TotalPoints(criteria[..|criteria| - 1]) + PointsOf(criteria[|criteria| - 1])
  }

  /** The loop of `_calculate_total_points`. */
  method CalculateTotalPoints(criteria: seq<Criterion>) returns (total: int)
    ensures total == TotalPoints(criteria)
    ensures (forall k :: 0 <= k < |criteria| ==> criteria[k].maxPoints.None?) ==> total == 0
  {
    total := 0;
    var i := 0;
    while i < |criteria|
      invariant 0 <= i <= |criteria|
      invariant total == TotalPoints(criteria[..i])
      invariant (forall k :: 0 <= k < i ==> criteria[k].maxPoints.None?) ==> total == 0
    {
      assert criteria[..i + 1][..i] == criteria[..i];
      total := total + PointsOf(criteria[i]);
      i := i + 1;
    }
    assert criteria[..i] == criteria;
  }

  /** The total is additive over concatenation of criteria lists. */
  lemma {:induction false} TotalPointsAppend(a: seq<Criterion>, b: seq<Criterion>)
    ensures TotalPoints(a + b) == TotalPoints(a) + TotalPoints(b)
    decreases |b|
  {
    if |b| > 0 {
      var b' := b[..|b| - 1];
      assert (a + b)[..|a + b| - 1] == a + b';
      TotalPointsAppend(a, b');
    } else {
      assert a + b == a;
    }
  }

  /** With non-negative `max_points` everywhere the total is non-negative and bounds
      every single criterion. */
  lemma {:induction false} TotalPointsBounds(criteria: seq<Criterion>)
    requires forall k :: 0 <= k < |criteria| ==> PointsOf(criteria[k]) >= 0
    ensures TotalPoints(criteria) >= 0
    ensures forall k :: 0 <= k < |criteria| ==> PointsOf(criteria[k]) <= TotalPoints(criteria)
    decreases |criteria|
  {
    if |criteria| > 0 {
      var front := criteria[..|criteria| - 1];
      TotalPointsBounds(front);
    }
  }

  /** `_append_score_summary`: the report comes back unchanged, whatever the criteria. */
  function AppendScoreSummary(evaluationText: string, criteria: seq<Criterion>): (r: string)
    ensures r == evaluationText
  {
    evaluationText
  }

  // ---------------------------------------------------------------------------
  // Evaluation statistics shared by the graded-assignment workflows
  // ---------------------------------------------------------------------------

  /** How many assignments were answered, and how many of those were judged correct. */
  datatype Tally = Tally(completed: nat, correct: nat)

  /** The positions of the records whose answer is non-empty. */
  function Answered<R>(records: seq<R>, answerOf: R -> string): set<nat>
  {
    set k: nat | k < |records| && answerOf(records[k]) != ""
  }

  /** The positions of the records whose answer is non-empty and whose evaluation
      says the answer is correct. */
  function AnsweredCorrectly<R>(records: seq<R>, answerOf: R -> string, correctOf: R -> bool): set<nat>
  {
    set k: nat | k < |records| && answerOf(records[k]) != "" && correctOf(records[k])
  }

  /** The counting loop of the assignment workflows' evaluation: a record counts as
      completed when its answer is non-empty, and as correct when it is completed and
      its evaluation says so. */
  function CountAssignments<R>(records: seq<R>, answerOf: R -> string, correctOf: R -> bool): (t: Tally)
    ensures t.completed == |Answered(records, answerOf)|
    ensures t.correct == |AnsweredCorrectly(records, answerOf, correctOf)|
    ensures t.correct <= t.completed <= |records|
    ensures t.completed == 0 <==> forall k :: 0 <= k < |records| ==> answerOf(records[k]) == ""
    ensures t.completed == |records| <==> forall k :: 0 <= k < |records| ==> answerOf(records[k]) != ""
  {
    if |records| == 0 then
      assert Answered(records, answerOf) == {};
      assert AnsweredCorrectly(records, answerOf, correctOf) == {};
      Tally(0, 0)
    else
      var front := records[..|records| - 1];
      var t := CountAssignments(front, answerOf, correctOf);
      var r := records[|records| - 1];
      AnsweredSnoc(records, answerOf, correctOf);
      AllOrNoneSnoc(records, answerOf, t.completed);
      if answerOf(r) != "" then Tally(t.completed + 1, t.correct + if correctOf(r) then 1 else 0)
      else t
  }

  /** Appending a record adds its own position to each set when it qualifies, and
      nothing else. */
  lemma AnsweredSnoc<R>(records: seq<R>, answerOf: R -> string, correctOf: R -> bool)
    requires |records| > 0
    ensures var n := |records| - 1;
            var r := records[n];
            Answered(records, answerOf) ==
              Answered(records[..n], answerOf) + (if answerOf(r) != "" then {n} else {})
    ensures var n := |records| - 1;
            var r := records[n];
            AnsweredCorrectly(records, answerOf, correctOf) ==
              AnsweredCorrectly(records[..n], answerOf, correctOf)
                + (if answerOf(r) != "" && correctOf(r) then {n} else {})
  {
    var n := |records| - 1;
    assert forall k :: 0 <= k < n ==> records[..n][k] == records[k];
  }

  /** Appending a record keeps "no answer yet" and "every answer given" in step with a
      count that grows exactly when the new record is answered. */
  lemma AllOrNoneSnoc<R>(records: seq<R>, answerOf: R -> string, c: nat)
    requires |records| > 0
    requires var front := records[..|records| - 1];
             c <= |front| &&
             (c == 0 <==> forall k :: 0 <= k < |front| ==> answerOf(front[k]) == "") &&
             (c == |front| <==> forall k :: 0 <= k < |front| ==> answerOf(front[k]) != "")
    ensures var c' := if answerOf(records[|records| - 1]) != "" then c + 1 else c;
            (c' == 0 <==> forall k :: 0 <= k < |records| ==> answerOf(records[k]) == "") &&
            (c' == |records| <==> forall k :: 0 <= k < |records| ==> answerOf(records[k]) != "")
  {
    var n := |records| - 1;
    assert forall k :: 0 <= k < n ==> records[..n][k] == records[k];
  }

  /** The instructions an assignment workflow's evaluation hands to the generator: the
      fixed "nothing completed" text, or the grading prompt built from the statistics
      (its wording is not modelled). */
  datatype Instructions = Literal(text: string) | GradingPrompt(tally: Tally)

  /** One evaluation call: the instructions given to the generator and the report returned. */
  datatype EvaluationCall = EvaluationCall(instructions: Instructions, report: string)

  const NoCompletedAssignments := "No completed assignments found. The student hasn't provided any answers yet."

  /** The shape shared by the assignment workflows' `run_evaluation`: with nothing
      completed the fixed text becomes the instructions, the generator is called in
      every case, and what is returned is its report with surrounding whitespace removed. */
  function AssignmentEvaluation(t: Tally, generated: string): (e: EvaluationCall)
    ensures e.report == Strip(generated)
    ensures t.completed == 0 <==> e.instructions == Literal(NoCompletedAssignments)
    ensures e.instructions.GradingPrompt? ==> e.instructions.tally == t && t.completed > 0
  {
    EvaluationCall(if t.completed == 0 then Literal(NoCompletedAssignments) else GradingPrompt(t), Strip(generated))
  }
}

=== FILE: classifiers.dfy ===
/** The keyword and length heuristics the assignment workflows use to decide whether a
    student message is a real answer. Every test runs on the stripped message; keyword
    tests are substring tests on its lower-cased form, so `"no"` matches inside `"know"`. */
module Classifiers {
  import opened Strings

  /** The short-reply indicators both assignment workflows share. */
  const ShortIndicators: seq<string> := ["ok", "okay", "thanks", "got it", "understand", "yes", "no", "wait"]

  /** Some indicator occurs in the lower-cased message. */
  predicate IsQuestion(message: string, indicators: seq<string>) {
    ContainsAny(Lower(message), indicators)
  }

  /** At most three words, and some short indicator occurs in the lower-cased message. */
  predicate IsShortResponse(message: string) {
    WordCount(message) <= 3 && ContainsAny(Lower(message), ShortIndicators)
  }

  /** `answer_words < assignment_words * 0.3`, in exact arithmetic. */
  predicate SeemsIncomplete(answerWords: nat, assignmentWords: nat) {
    10 * answerWords < 3 * assignmentWords
  }

  /** A message of at most three words that contains a short indicator as a substring is a
      short reply, even where the indicator is part of a longer word: "I know" counts
      because "no" occurs in "know". */
  lemma ShortIndicatorInsideWord(message: string)
    requires message == "I know"
    ensures IsShortResponse(message)
  {
    IKnowIsTwoWords(message);
    IKnowHoldsNo(message);
  }

  lemma IKnowIsTwoWords(message: string)
    requires message == "I know"
    ensures WordCount(message) == 2
  {
    var i, know := "I", "know";
    assert message == i + " " + know;
    assert NoSpace(i) && NoSpace(know);
    TwoWords(i, know);
  }

  /** Two words joined by a space are two words. */
  lemma TwoWords(a: string, b: string)
    requires |a| > 0 && NoSpace(a) && |b| > 0 && NoSpace(b)
    ensures WordCount(a + " " + b) == 2
  {
    WordCountCons(a, b);
    WordCountCons(b, "");
  }

  lemma IKnowHoldsNo(message: string)
    requires message == "I know"
    ensures Contains(Lower(message), ShortIndicators[6])
  {
    assert Lower(message) == "i know";
    assert ShortIndicators[6] == "no";
    assert OccursAt(Lower(message), "no", 3);
  }

  /** A message of four or more words is never a short reply, whatever indicators
      its words hold: the three-word bound is tested before the keywords. */
  lemma FourWordsAreNotShort(words: seq<string>)
    requires |words| >= 4
    requires forall k :: 0 <= k < |words| ==> |words[k]| > 0 && NoSpace(words[k])
    ensures !IsShortResponse(Join(words, " "))
  {
    WordCountJoin(words);
  }
}

=== FILE: custom.dfy ===
/** The free-form chat workflow: each turn appends one exchange to the history; the
    block's specifications are rendered into the assistant's instructions, and the
    evaluation lists every exchange. One call of `Step` is one `run_workflow`; the
    assistant's reply is an input. */
module Custom {
  import opened Strings
  import opened Base

  /** One exchange. */
  datatype CustomRecord = CustomRecord(userMessage: string, assistantResponse: string, timestamp: string)

  type CustomState = WorkflowState<CustomRecord>

  const FinishedReply := "Чат завершено."

  /** One `run_workflow` turn. */
  function Step(st: CustomState, userMessage: string, now: string, generated: string): (r: Turn<CustomRecord>)
    ensures st.status == Finished ==> r == Turn(st, FinishedReply)
    ensures st.status == Active ==>
              && r.reply == generated
              && r.state.answers == st.answers + [CustomRecord(userMessage, generated, now)]
              && r.state.(answers := st.answers) == st
  {
    if st.status == Finished then Turn(st, FinishedReply)
    else Turn(st.(answers := st.answers + [CustomRecord(userMessage, generated, now)]), generated)
  }

  /** The inputs of one turn. */
  datatype Input = Input(userMessage: string, now: string, generated: string)

  function Run(st: CustomState, inputs: seq<Input>): CustomState
    decreases |inputs|
  {
    if |inputs| == 0 then st
    else
      var i := inputs[0];
      Run(Step(st, i.userMessage, i.now, i.generated).state, inputs[1..])
  }

  /** A conversation only ever appends: the k-th turn's exchange lands at position
      `|answers| + k`, the earlier history is kept, and nothing else changes. */
  lemma {:induction false} RunAppends(st: CustomState, inputs: seq<Input>)
    requires st.status == Active
    ensures var end := Run(st, inputs);
            && |end.answers| == |st.answers| + |inputs|
            && end.answers[..|st.answers|] == st.answers
            && (forall k :: 0 <= k < |inputs| ==>
                  end.answers[|st.answers| + k]
                  == CustomRecord(inputs[k].userMessage, inputs[k].generated, inputs[k].now))
            && end.(answers := st.answers) == st
    decreases |inputs|
  {
    if |inputs| > 0 {
      var i := inputs[0];
      var next := Step(st, i.userMessage, i.now, i.generated).state;
      RunAppends(next, inputs[1..]);
      var end := Run(next, inputs[1..]);
      assert end.answers[..|next.answers|] == next.answers;
      assert end.answers[..|st.answers|] == next.answers[..|st.answers|];
      forall k | 0 <= k < |inputs|
        ensures end.answers[|st.answers| + k]
                == CustomRecord(inputs[k].userMessage, inputs[k].generated, inputs[k].now)
      {
        if k > 0 {
          assert inputs[k] == inputs[1..][k - 1];
        }
      }
    }
  }

  // ---------------------------------------------------------------------------
  // The specifications section of the instructions
  // ---------------------------------------------------------------------------

  const SpecsHeader := "\n\n# Specifications:\n"

  /** One entry of a specification object, `key: value` on its own line. */
  function EntryLine(entry: (string, string)): string {
    entry.0 + ": " + entry.1 + "\n"
  }

  /** The lines of one specification: an object's entries in order, or the value itself. */
  function SpecLines(spec: Spec): string {
    match spec
    case SpecDict(entries) => Concat(seq(|entries|, k requires 0 <= k < |entries| => EntryLine(entries[k])))
    case SpecOther(text) => text + "\n"
  }

  /** The lines of all specifications, in order. */
  function AllSpecLines(specs: seq<Spec>): string {
    if |specs| == 0 then "" else AllSpecLines(specs[..|specs| - 1]) + SpecLines(specs[|specs| - 1])
  }

  /** The specifications section: empty exactly when there are no specifications,
      otherwise the header followed by every specification's lines. */
  function SpecsText(specs: seq<Spec>): (r: string)
    ensures r == "" <==> specs == []
    ensures specs != [] ==> |r| >= |SpecsHeader| && r[..|SpecsHeader|] == SpecsHeader
  {
    if specs == [] then "" else SpecsHeader + AllSpecLines(specs)
  }

  /** The section grows by one specification's lines per specification. */
  lemma SpecsTextSnoc(specs: seq<Spec>, s: Spec)
    ensures SpecsText(specs + [s]) == (if specs == [] then SpecsHeader else SpecsText(specs)) + SpecLines(s)
  {
    assert (specs + [s])[..|specs|] == specs;
    if specs == [] {
      assert specs + [s] == [s];
      assert [s][..0] == [];
      assert AllSpecLines([s]) == SpecLines(s);
    }
  }

  /** An object's lines grow by one `key: value` line per further entry, so every entry
      renders as its own line, in order. */
  lemma SpecDictSnoc(entries: seq<(string, string)>, e: (string, string))
    ensures SpecLines(SpecDict(entries + [e])) == SpecLines(SpecDict(entries)) + EntryLine(e)
  {
    var longer := entries + [e];
    var lines := seq(|entries|, k requires 0 <= k < |entries| => EntryLine(entries[k]));
    var lines' := seq(|longer|, k requires 0 <= k < |longer| => EntryLine(longer[k]));
    assert lines' == lines + [EntryLine(e)];
    ConcatSnoc(lines, EntryLine(e));
  }

  /** A one-entry object renders as its single line. */
  lemma OneEntrySpecText(key: string, value: string)
    ensures SpecsText([SpecDict([(key, value)])]) == SpecsHeader + key + ": " + value + "\n"
  {
    SpecDictSnoc([], (key, value));
    assert [] + [(key, value)] == [(key, value)];
    assert SpecLines(SpecDict([])) == "";
    SingleSpecText(SpecDict([(key, value)]));
  }

  /** Any other value renders as itself on a line. */
  lemma OtherSpecText(text: string)
    ensures SpecsText([SpecOther(text)]) == SpecsHeader + text + "\n"
  {
    SingleSpecText(SpecOther(text));
  }

  /** A single specification's section is the header and its lines. */
  lemma SingleSpecText(spec: Spec)
    ensures SpecsText([spec]) == SpecsHeader + SpecLines(spec)
  {
    assert [spec][..0] == [];
    assert AllSpecLines([spec]) == AllSpecLines([]) + SpecLines(spec);
  }

  // ---------------------------------------------------------------------------
  // The conversation listing of run_evaluation
  // ---------------------------------------------------------------------------

  function Rule(): string {
    seq(60, _ => '=')
  }

  /** The block for the exchange numbered `n`. */
  function ExchangeBlock(n: nat, rec: CustomRecord): string {
    "\n" + Rule() + "\n" + "Exchange " + NatToString(n) + ":\n" + Rule() + "\n\n"
    + "**User:** " + rec.userMessage + "\n"
    + "**Assistant:** " + rec.assistantResponse + "\n\n"
  }

  /** The blocks of the history, numbered from 1. */
  function Blocks(answers: seq<CustomRecord>): (bs: seq<string>)
    ensures |bs| == |answers|
  {
    seq(|answers|, k requires 0 <= k < |answers| => ExchangeBlock(k + 1, answers[k]))
  }

  /** The listing loop: one block per exchange, in order, numbered from 1. */
  method ConversationText(answers: seq<CustomRecord>) returns (text: string)
    ensures text == Concat(Blocks(answers))
  {
    text := "";
    var i := 0;
    while i < |answers|
      invariant 0 <= i <= |answers|
      invariant text == Concat(Blocks(answers[..i]))
    {
      assert Blocks(answers[..i + 1]) == Blocks(answers[..i]) + [ExchangeBlock(i + 1, answers[i])];
      ConcatSnoc(Blocks(answers[..i]), ExchangeBlock(i + 1, answers[i]));
      text := text + ExchangeBlock(i + 1, answers[i]);
      i := i + 1;
    }
    assert answers[..i] == answers;
  }

  /** Every block names its exchange's number, so the listing has exactly one block per
      exchange: the k-th block starts with the numbered heading of exchange k + 1. */
  lemma BlocksAreNumbered(answers: seq<CustomRecord>, k: nat)
    requires k < |answers|
    ensures var b := Blocks(answers)[k];
            var heading := "\n" + Rule() + "\n" + "Exchange " + NatToString(k + 1) + ":\n";
            |heading| <= |b| && b[..|heading|] == heading
  {
  }
}

=== FILE: examination.dfy ===
/** The oral-exam workflow: a cursor over the question list, one open answer record per
    question, and a bounded budget of follow-up questions when an answer is incomplete.
    One call of `Step` is one `run_workflow` after the state has been loaded; the
    interviewer's text (`generated`) and the evaluator's verdict (`judge`) are inputs. */
module Examination {
  import opened Maybe
  import opened Base

  /** The evaluator's structured verdict on an answer. */
  datatype Judgement = Judgement(complete: bool, missingConcepts: seq<string>, needsClarification: bool)

  /** One answer record; `evaluation` is `None` while it is still `{}`. */
  datatype ExamRecord = ExamRecord(questionIndex: int, answer: string, timestamp: string, evaluation: Option<Judgement>)

  type ExamState = WorkflowState<ExamRecord>

  const AlreadyFinishedReply := "Іспит вже завершено."
  const NothingLeftReply := "Вітаю! Ви відповіли на всі питання. Іспит завершено."
  const LastAnsweredReply := "Вітаю! Ви відповіді на всі питання. Іспит завершено."
  const BudgetExhaustedReply := "Іспит завершено."

  /** The open record appended when a question is asked. */
  function Asked(index: int, now: string): ExamRecord {
    ExamRecord(index, "", now, None)
  }

  /** The last record's evaluation exists and says the answer was complete. */
  predicate LastJudgedComplete(answers: seq<ExamRecord>) {
    |answers| > 0 && Last(answers).evaluation.Some? && Last(answers).evaluation.value.complete
  }

  /** Move to the next question: finish when it is past the end, otherwise ask it. */
  function Advance(st: ExamState, now: string, generated: string, finishReply: string): Turn<ExamRecord> {
    var next := st.(index := st.index + 1, followUpCount := 0);
    if next.index >= |next.questions| then Turn(next.(status := Finished), finishReply)
    else Turn(next.(answers := next.answers + [Asked(next.index, now)]), generated)
  }

  /** The state reachable from creation: the cursor within the list and the follow-up
      count within its budget. */
  predicate Valid(st: ExamState) {
    && 0 <= st.index <= |st.questions|
    && 0 <= st.followUpCount <= st.maxFollowUps
  }

  /** One `run_workflow` turn. */
  function Step(st: ExamState, userMessage: string, now: string, generated: string, judge: Judgement): (r: Turn<ExamRecord>)
    // A finished exam replies with a fixed text and is left as it is.
    ensures st.status == Finished ==> r == Turn(st, AlreadyFinishedReply)
    // Nothing outside the progress fields ever changes.
    ensures && r.state.ubId == st.ubId && r.state.blockId == st.blockId
            && r.state.questions == st.questions && r.state.maxFollowUps == st.maxFollowUps
            && r.state.customData == st.customData
    // The cursor never goes back and moves by at most one question per turn.
    ensures st.index <= r.state.index <= st.index + 1
    // Status only goes from active to finished.
    ensures st.status == Finished ==> r.state.status == Finished
    // Records are only appended or the last one judged: earlier records never change.
    ensures |st.answers| <= |r.state.answers| <= |st.answers| + 1
    ensures |st.answers| > 0 ==> r.state.answers[..|st.answers| - 1] == st.answers[..|st.answers| - 1]
    // The follow-up budget is respected.
    ensures 0 <= st.maxFollowUps && 0 <= st.followUpCount <= st.maxFollowUps ==>
              0 <= r.state.followUpCount <= r.state.maxFollowUps
    ensures Valid(st) ==> Valid(r.state)
    // Past the end on entry: finish without touching the records.
    ensures st.status == Active && st.index >= |st.questions| ==>
              r == Turn(st.(status := Finished), NothingLeftReply)
    // Nothing to judge: ask the current question, appending exactly one open record.
    ensures st.status == Active && st.index < |st.questions|
            && (st.answers == [] || LastJudgedComplete(st.answers)) ==>
              && r.state == st.(answers := st.answers + [Asked(st.index, now)], followUpCount := 0)
              && r.reply == generated
    // Otherwise the message answers the open record, which takes the verdict.
    ensures st.status == Active && st.index < |st.questions|
            && st.answers != [] && !LastJudgedComplete(st.answers) ==>
              && |r.state.answers| >= |st.answers|
              && r.state.answers[|st.answers| - 1]
                 == Last(st.answers).(answer := userMessage, timestamp := now, evaluation := Some(judge))
    // A complete answer advances; the exam finishes exactly when that was the last question.
    ensures st.status == Active && st.index < |st.questions|
            && st.answers != [] && !LastJudgedComplete(st.answers) && judge.complete ==>
              && r.state.index == st.index + 1 && r.state.followUpCount == 0
              && (r.state.status == Finished <==> st.index + 1 == |st.questions|)
              && (r.state.status == Finished ==> |r.state.answers| == |st.answers| && r.reply == LastAnsweredReply)
              && (r.state.status == Active ==>
                    |r.state.answers| == |st.answers| + 1 && Last(r.state.answers) == Asked(st.index + 1, now))
    // An incomplete answer with the budget spent is force-advanced.
    ensures st.status == Active && st.index < |st.questions|
            && st.answers != [] && !LastJudgedComplete(st.answers) && !judge.complete
            && st.followUpCount >= st.maxFollowUps ==>
              && r.state.index == st.index + 1 && r.state.followUpCount == 0
              && (r.state.status == Finished <==> st.index + 1 >= |st.questions|)
              && (r.state.status == Finished ==> |r.state.answers| == |st.answers| && r.reply == BudgetExhaustedReply)
              && (r.state.status == Active ==>
                    |r.state.answers| == |st.answers| + 1 && Last(r.state.answers) == Asked(st.index + 1, now))
    // An incomplete answer within the budget asks a follow-up on the same question.
    ensures st.status == Active && st.index < |st.questions|
            && st.answers != [] && !LastJudgedComplete(st.answers) && !judge.complete
            && st.followUpCount < st.maxFollowUps ==>
              && r.state.index == st.index && r.state.followUpCount == st.followUpCount + 1
              && |r.state.answers| == |st.answers| && r.state.status == Active && r.reply == generated
  {
    if st.status == Finished then Turn(st, AlreadyFinishedReply)
    else if st.index >= |st.questions| then Turn(st.(status := Finished), NothingLeftReply)
    else if st.answers == [] || LastJudgedComplete(st.answers) then
      Turn(st.(answers := st.answers + [Asked(st.index, now)], followUpCount := 0), generated)
    else
      var judged := Last(st.answers).(answer := userMessage, timestamp := now, evaluation := Some(judge));
      var st1 := st.(answers := SetLast(st.answers, judged));
      if judge.complete then Advance(st1, now, generated, LastAnsweredReply)
      else if st1.followUpCount >= st1.maxFollowUps then Advance(st1, now, generated, BudgetExhaustedReply)
      else Turn(st1.(followUpCount := st1.followUpCount + 1), generated)
  }

  /** The inputs of one turn. */
  datatype Input = Input(userMessage: string, now: string, generated: string, judge: Judgement)

  /** A conversation: the turns applied one after another. */
  function Run(st: ExamState, inputs: seq<Input>): ExamState
    decreases |inputs|
  {
    if |inputs| == 0 then st
    else
      var i := inputs[0];
      Run(Step(st, i.userMessage, i.now, i.generated, i.judge).state, inputs[1..])
  }

  /** Over a whole conversation the state stays valid, the cursor advances by at most
      one question per turn and never back, and a finished exam stays finished. */
  lemma {:induction false} RunKeepsInvariants(st: ExamState, inputs: seq<Input>)
    requires Valid(st)
    ensures Valid(Run(st, inputs))
    ensures st.index <= Run(st, inputs).index <= st.index + |inputs|
    ensures st.status == Finished ==> Run(st, inputs).status == Finished
    ensures Run(st, inputs).questions == st.questions
    decreases |inputs|
  {
    if |inputs| > 0 {
      var i := inputs[0];
      var next := Step(st, i.userMessage, i.now, i.generated, i.judge).state;
      RunKeepsInvariants(next, inputs[1..]);
    }
  }

  /** A freshly created exam is valid, so every conversation from creation stays so. */
  lemma FreshIsValid(ubId: int, blockId: int, specs: seq<Spec>)
    ensures Valid(NewState(ubId, blockId, specs))
  {
  }
}

=== FILE: fill_gaps.dfy ===
/** The fill-in-the-gaps drill: exactly ten graded assignments. Each assignment record
    waits for an answer; clarifying questions and short replies are answered without
    grading, a full answer is graded and the next assignment is generated. One call of
    `Step` is one `run_workflow_stream`; the evaluator's verdict and the generator's chunk
    stream are inputs. */
module FillGaps {
  import opened Maybe
  import opened Strings
  import opened Base
  import opened Classifiers

  /** The evaluator's structured verdict. */
  datatype GapJudgement = GapJudgement(allCorrect: bool, errors: seq<string>, feedback: string)

  /** One assignment record. */
  datatype GapRecord = GapRecord(
    assignmentIndex: int,
    assignment: string,
    answer: string,
    timestamp: string,
    graded: bool,
    waitingForAnswer: bool,
    userMessage: string,
    tutorResponse: string,
    evaluation: Option<GapJudgement>)

  type GapState = WorkflowState<GapRecord>

  /** The hard cap on assignments. */
  const MaxAssignments := 10

  const QuestionIndicators: seq<string> :=
    ["?", "what", "how", "why", "could you", "can you", "explain", "help", "don't understand", "unclear", "confused"]

  const AlreadyFinishedReply := "Assignments завершено. Дякую за роботу!"
  const CapReachedReply := "You have completed 10 assignments. Excellent work! The test is finished."
  const FinalNote := "\n\n🎉 You have completed all 10 assignments. Excellent work! The test is finished."

  /** A fresh assignment waiting for its answer. */
  function NewAssignment(index: int, text: string, now: string): GapRecord {
    GapRecord(index, text, "", now, false, true, "", "", None)
  }

  /** The last record waits for an answer. */
  predicate Waiting(answers: seq<GapRecord>) {
    |answers| > 0 && Last(answers).waitingForAnswer
  }

  /** The stripped message is a clarifying question or a short reply; FillGaps has no
      length-ratio test. A question always deflects; so does a message of at most three
      words holding a short indicator ("ok", "thanks", …); beyond three words only a
      question does; a message with neither kind of indicator never does, and a blank
      message is not deflected: it goes on to grading. */
  function Deflects(userMessage: string): (b: bool)
    ensures IsQuestion(Strip(userMessage), QuestionIndicators) ==> b
    ensures WordCount(Strip(userMessage)) <= 3 && ContainsAny(Lower(Strip(userMessage)), ShortIndicators) ==> b
    ensures WordCount(Strip(userMessage)) > 3 ==> (b <==> IsQuestion(Strip(userMessage), QuestionIndicators))
    ensures !IsQuestion(Strip(userMessage), QuestionIndicators) && !ContainsAny(Lower(Strip(userMessage)), ShortIndicators) ==> !b
    ensures Strip(userMessage) == "" ==> !b
  {
    var m := Strip(userMessage);
    BlankHoldsNothing(QuestionIndicators);
    BlankHoldsNothing(ShortIndicators);
    IsQuestion(m, QuestionIndicators) || IsShortResponse(m)
  }

  /** `_format_feedback`: the fixed praise when every gap is right; otherwise a
      heading, one marked line for each error, and the judge's feedback. */
  function FormatFeedback(j: GapJudgement): (r: string)
    ensures j.allCorrect ==> r == "✅ Excellent! All answers are correct."
    ensures !j.allCorrect ==> "Let me check your answers:\n" <= r
    ensures !j.allCorrect ==> forall k :: 0 <= k < |j.errors| ==> Contains(r, "❌ " + j.errors[k])
    ensures !j.allCorrect ==> Contains(r, "\n" + j.feedback)
  {
    if j.allCorrect then "✅ Excellent! All answers are correct."
    else
      var marked := seq(|j.errors|, k requires 0 <= k < |j.errors| => "❌ " + j.errors[k]);
      var parts := ["Let me check your answers:\n"] + marked + ["\n" + j.feedback];
      JoinHasParts(parts, "\n");
      assert forall k :: 0 <= k < |j.errors| ==> parts[k + 1] == "❌ " + j.errors[k];
      assert parts[|parts| - 1] == "\n" + j.feedback;
      Join(parts, "\n")
  }

  /** The number of graded records. */
  function GradedCount(rs: seq<GapRecord>): nat {
    if |rs| == 0 then 0 else GradedCount(rs[..|rs| - 1]) + if Last(rs).graded then 1 else 0
  }

  lemma GradedCountSetLast(rs: seq<GapRecord>, x: GapRecord)
    requires |rs| > 0
    ensures GradedCount(SetLast(rs, x))
            == GradedCount(rs) - (if Last(rs).graded then 1 else 0) + (if x.graded then 1 else 0)
  {
    assert SetLast(rs, x)[..|rs| - 1] == rs[..|rs| - 1];
  }

  lemma GradedCountAppend(rs: seq<GapRecord>, x: GapRecord)
    ensures GradedCount(rs + [x]) == GradedCount(rs) + if x.graded then 1 else 0
  {
    assert (rs + [x])[..|rs|] == rs;
  }

  /** The states reachable from creation: the graded records are exactly `index` many,
      never more than ten, and a record is graded exactly when it no longer waits. */
  predicate Valid(st: GapState) {
    && 0 <= st.index <= MaxAssignments
    && GradedCount(st.answers) == st.index
    && forall k :: 0 <= k < |st.answers| ==> st.answers[k].graded == !st.answers[k].waitingForAnswer
  }

  /** One `run_workflow_stream` turn. */
  function Step(st: GapState, userMessage: string, now: string, judge: GapJudgement, chunks: seq<string>): (r: StreamTurn<GapRecord>)
    ensures st.status == Finished ==> r == StreamTurn(st, [AlreadyFinishedReply])
    ensures && r.state.ubId == st.ubId && r.state.blockId == st.blockId
            && r.state.questions == st.questions && r.state.customData == st.customData
            && r.state.followUpCount == st.followUpCount && r.state.maxFollowUps == st.maxFollowUps
    ensures st.index <= r.state.index <= st.index + 1
    ensures st.status == Finished ==> r.state.status == Finished
    ensures |st.answers| <= |r.state.answers| <= |st.answers| + 1
    ensures |st.answers| > 0 ==> r.state.answers[..|st.answers| - 1] == st.answers[..|st.answers| - 1]
    // At or past the cap on entry: finish.
    ensures st.status == Active && st.index >= MaxAssignments ==>
              r == StreamTurn(st.(status := Finished), [CapReachedReply])
    // A question or short reply touches only the open record's message and response.
    ensures st.status == Active && st.index < MaxAssignments && Waiting(st.answers) && Deflects(userMessage) ==>
              && r.state == st.(answers := SetLast(st.answers,
                                  Last(st.answers).(userMessage := userMessage, tutorResponse := Concat(chunks))))
              && r.yielded == chunks
    // A full answer is graded and the cursor moves by one.
    ensures st.status == Active && st.index < MaxAssignments && Waiting(st.answers) && !Deflects(userMessage) ==>
              && r.state.index == st.index + 1
              && r.state.answers[|st.answers| - 1]
                 == Last(st.answers).(answer := userMessage, timestamp := now, waitingForAnswer := false,
                                      graded := true, evaluation := Some(judge))
              && (r.state.status == Finished <==> st.index + 1 == MaxAssignments)
              && (r.state.status == Finished ==>
                    |r.state.answers| == |st.answers| && r.yielded == [FormatFeedback(judge) + FinalNote])
              && (r.state.status == Active ==>
                    && |r.state.answers| == |st.answers| + 1
                    && Last(r.state.answers) == NewAssignment(st.index + 1, Concat(chunks), now)
                    && r.yielded == chunks)
    // Nothing waits: present the current assignment.
    ensures st.status == Active && st.index < MaxAssignments && !Waiting(st.answers) ==>
              && r.state == st.(answers := st.answers + [NewAssignment(st.index, Concat(chunks), now)])
              && r.yielded == chunks
  {
    if st.status == Finished then StreamTurn(st, [AlreadyFinishedReply])
    else if st.index >= MaxAssignments then StreamTurn(st.(status := Finished), [CapReachedReply])
    else if Waiting(st.answers) then
      var last := Last(st.answers);
      if Deflects(userMessage) then
        StreamTurn(st.(answers := SetLast(st.answers, last.(userMessage := userMessage, tutorResponse := Concat(chunks)))),
                   chunks)
      else
        var graded := last.(answer := userMessage, timestamp := now, waitingForAnswer := false,
                            graded := true, evaluation := Some(judge));
        var st1 := st.(answers := SetLast(st.answers, graded), index := st.index + 1);
        if st1.index >= MaxAssignments then
          StreamTurn(st1.(status := Finished), [FormatFeedback(judge) + FinalNote])
        else
          var added := NewAssignment(st1.index, Concat(chunks), now);
          StreamTurn(st1.(answers := st1.answers + [added]), chunks)
    else
      var added := NewAssignment(st.index, Concat(chunks), now);
      StreamTurn(st.(answers := st.answers + [added]), chunks)
  }

  /** The cap: a turn keeps the drill valid, so there are never more than ten graded
      records, and a turn that finishes an active drill leaves exactly ten. */
  lemma StepKeepsValid(st: GapState, userMessage: string, now: string, judge: GapJudgement, chunks: seq<string>)
    requires Valid(st)
    ensures var r := Step(st, userMessage, now, judge, chunks);
            && Valid(r.state)
            && (st.status == Active && r.state.status == Finished ==> GradedCount(r.state.answers) == MaxAssignments)
  {
    var r := Step(st, userMessage, now, judge, chunks);
    if st.status == Active && st.index < MaxAssignments {
      if !Waiting(st.answers) {
        GradedCountAppend(st.answers, NewAssignment(st.index, Concat(chunks), now));
      } else if Deflects(userMessage) {
        GradedCountSetLast(st.answers, Last(r.state.answers));
      } else {
        GradingKeepsValid(st, userMessage, now, judge, chunks);
      }
    }
  }

  /** The grading turn of `StepKeepsValid`: the open record becomes graded, and a new,
      ungraded one follows unless the cap is reached. */
  lemma GradingKeepsValid(st: GapState, userMessage: string, now: string, judge: GapJudgement, chunks: seq<string>)
    requires Valid(st) && st.status == Active && st.index < MaxAssignments
    requires Waiting(st.answers) && !Deflects(userMessage)
    ensures var r := Step(st, userMessage, now, judge, chunks);
            && Valid(r.state)
            && (r.state.status == Finished ==> GradedCount(r.state.answers) == MaxAssignments)
  {
    var r := Step(st, userMessage, now, judge, chunks);
    assert !Last(st.answers).graded;
    var graded := r.state.answers[|st.answers| - 1];
    var rs := SetLast(st.answers, graded);
    GradedCountSetLast(st.answers, graded);
    if st.index + 1 < MaxAssignments {
      assert r.state.answers == rs + [Last(r.state.answers)];
      GradedCountAppend(rs, Last(r.state.answers));
    } else {
      assert r.state.answers == rs;
    }
  }

  /** Unless the drill has just finished, what it persists after streaming is exactly the
      stream it yielded, in order: the tutor's reply to a question, or the text of the
      next assignment. */
  lemma PersistedTextIsYieldedText(st: GapState, userMessage: string, now: string, judge: GapJudgement, chunks: seq<string>)
    requires st.status == Active && st.index < MaxAssignments
    ensures var r := Step(st, userMessage, now, judge, chunks);
            r.state.status == Active ==>
              && r.yielded == chunks
              && (if Waiting(st.answers) && Deflects(userMessage) then Last(r.state.answers).tutorResponse
               else Last(r.state.answers).assignment) == Concat(chunks)
  {
  }

  /** The inputs of one turn. */
  datatype Input = Input(userMessage: string, now: string, judge: GapJudgement, chunks: seq<string>)

  function Run(st: GapState, inputs: seq<Input>): GapState
    decreases |inputs|
  {
    if |inputs| == 0 then st
    else
      var i := inputs[0];
      Run(Step(st, i.userMessage, i.now, i.judge, i.chunks).state, inputs[1..])
  }

  /** However long the conversation, there are never more than ten graded assignments. */
  lemma {:induction false} NeverAnEleventh(st: GapState, inputs: seq<Input>)
    requires Valid(st)
    ensures Valid(Run(st, inputs))
    ensures GradedCount(Run(st, inputs).answers) <= MaxAssignments
    ensures st.status == Finished ==> Run(st, inputs).status == Finished
    decreases |inputs|
  {
    if |inputs| > 0 {
      var i := inputs[0];
      StepKeepsValid(st, i.userMessage, i.now, i.judge, i.chunks);
      NeverAnEleventh(Step(st, i.userMessage, i.now, i.judge, i.chunks).state, inputs[1..]);
    }
  }

  lemma FreshIsValid(ubId: int, blockId: int, specs: seq<Spec>)
    ensures Valid(NewState(ubId, blockId, specs))
  {
  }

  /** A record's answer, as the evaluation reads it. */
  function AnswerOf(r: GapRecord): string
  {
    r.answer
  }

  /** Whether a record's evaluation says `all_correct`; an unevaluated record is not correct. */
  predicate JudgedCorrect(r: GapRecord)
  {
    r.evaluation.Some? && r.evaluation.value.allCorrect
  }

  /** `run_evaluation`'s statistics and instructions: the tally counts the records
      with a non-empty answer, and among them those judged correct. */
  function Evaluate(st: GapState, generated: string): (e: EvaluationCall)
    ensures e.report == Strip(generated)
    ensures e.instructions == Literal(NoCompletedAssignments) <==>
              forall k :: 0 <= k < |st.answers| ==> st.answers[k].answer == ""
    ensures e.instructions.GradingPrompt? ==>
              e.instructions.tally.completed == |Answered(st.answers, AnswerOf)| &&
              e.instructions.tally.correct == |AnsweredCorrectly(st.answers, AnswerOf, JudgedCorrect)|
    ensures e.instructions.GradingPrompt? ==>
              e.instructions.tally.correct <= e.instructions.tally.completed <= |st.answers|
  {
    var t := CountAssignments(st.answers, AnswerOf, JudgedCorrect);
    AssignmentEvaluation(t, generated)
  }
}

=== FILE: maybe.dfy ===
/** The optional value used wherever the Python code returns `None` or reads a dict key
    that may be absent (`d.get(k)`). */
module Maybe {

  datatype Option<+T> = None | Some(value: T) {

    /** The value, or `default` when absent: Python's `d.get(k, default)`. */
    function GetOr(default: T): T {
      match this
      case Some(v) => v
      case None => default
    }
  }
}

=== FILE: reflection.dfy ===
/** The reflection-coaching workflow: a session walks forward through four phases
    (aspiration, strengths, feed-forward, summary), collecting the coachee's messages in
    the current phase and moving on when the coach's reply signals it. One call of
    `Step` is one `run_workflow_stream`; the coach's chunk stream is an input. */
module Reflection {
  import opened Maybe
  import opened Strings
  import opened Base

  /** One exchange, tagged with the phase the turn began in. */
  datatype ReflectionRecord = ReflectionRecord(userMessage: string, coachResponse: string, timestamp: string, phase: Phase)

  type ReflectionState = WorkflowState<ReflectionRecord>

  const AlreadyFinishedReply := "Reflection session завершено. Дякую!"

  /** The specification key holding the session's time box, such as "10 minutes". */
  const TimeboxKey := "timebox"

  /** The phase of the session, `aspiration` until one is set. */
  function PhaseOf(cd: CustomData): Phase {
    cd.phase.GetOr(Aspiration)
  }

  /** The data collected in phase `p` (an absent entry reads as empty). */
  function DataOf(cd: CustomData, p: Phase): PhaseData
    requires p != Summary
  {
    match p
    case Aspiration => cd.aspiration.GetOr(NoPhaseData)
    case Strengths => cd.strengths.GetOr(NoPhaseData)
    case FeedForward => cd.feedForward.GetOr(NoPhaseData)
  }

  function WithData(cd: CustomData, p: Phase, d: PhaseData): CustomData
    requires p != Summary
  {
    match p
    case Aspiration => cd.(aspiration := Some(d))
    case Strengths => cd.(strengths := Some(d))
    case FeedForward => cd.(feedForward := Some(d))
  }

  /** The start of a session: `aspiration`, with nothing collected. */
  function Initialised(cd: CustomData): CustomData {
    if cd.phase.None? then
      cd.(phase := Some(Aspiration), aspiration := Some(NoPhaseData), strengths := Some(NoPhaseData),
          feedForward := Some(NoPhaseData))
    else cd
  }

  /** The coach's reply closes phase `p`: the transition phrases, tested on its
      lower-cased text. */
  function Closes(p: Phase, coachResponse: string): (b: bool)
    requires p != Summary
    ensures coachResponse == "" ==> !b
    ensures p == Aspiration && b ==> Contains(Lower(coachResponse), "сильних сторін")
  {
    var r := Lower(coachResponse);
    BlankHoldsNothing([]);
    match p
    case Aspiration => Contains(r, "перейдемо до") && Contains(r, "сильних сторін")
    case Strengths => Contains(r, "наступні кроки") || Contains(r, "визначимо конкретні")
    case FeedForward => Contains(r, "підсумок") || Contains(r, "продуктивну сесію")
  }

  /** The phase after `p`. */
  function Next(p: Phase): (q: Phase)
    requires p != Summary
    ensures q.Rank() == p.Rank() + 1
  {
    match p
    case Aspiration => Strengths
    case Strengths => FeedForward
    case FeedForward => Summary
  }

  /** The time box runs out: a "10" in it after eight records, or a "20" after fifteen.
      It never runs out before the eighth record, only a time box naming 10 or 20 runs
      out at all, one naming 10 has run out from the eighth record on, and one naming
      only 20 runs out exactly from the fifteenth. */
  function TimeUp(timebox: string, records: nat): (b: bool)
    ensures records < 8 ==> !b
    ensures b ==> Contains(timebox, "10") || Contains(timebox, "20")
    ensures Contains(timebox, "10") && records >= 8 ==> b
    ensures !Contains(timebox, "10") && records < 15 ==> !b
    ensures records >= 15 && (Contains(timebox, "10") || Contains(timebox, "20")) ==> b
  {
    (Contains(timebox, "10") && records >= 8) || (Contains(timebox, "20") && records >= 15)
  }

  /** The coachee asks to wrap up: "завершуй" or "закінчи", in any letter case, anywhere
      in the message. A message shorter than the shorter of the two never asks. */
  function WrapUpAsked(userMessage: string): (b: bool)
    ensures b ==> |userMessage| >= |"закінчи"|
    ensures Contains(Lower(userMessage), "завершуй") ==> b
    ensures Contains(Lower(userMessage), "закінчи") ==> b
    ensures !Contains(Lower(userMessage), "завершуй") && !Contains(Lower(userMessage), "закінчи") ==> !b
  {
    Contains(Lower(userMessage), "завершуй") || Contains(Lower(userMessage), "закінчи")
  }

  /** The outcome of `_update_phase_and_data`. */
  datatype Updated = Updated(customData: CustomData, status: Status)

  /** `_update_phase_and_data` for a session in phase `PhaseOf(cd)` that now holds
      `records` records. */
  function UpdatePhaseAndData(cd: CustomData, status: Status, records: nat, userMessage: string,
                              coachResponse: string, timebox: string): (u: Updated)
    // The phase never moves back.
    ensures u.customData.phase.Some? && PhaseOf(cd).Rank() <= PhaseOf(u.customData).Rank()
    // Without a time-out or a wrap-up request it moves by at most one, and exactly when
    // the reply closes the phase.
    ensures PhaseOf(cd) != Summary && !TimeUp(timebox, records) && !WrapUpAsked(userMessage) ==>
              PhaseOf(u.customData) == if Closes(PhaseOf(cd), coachResponse) then Next(PhaseOf(cd)) else PhaseOf(cd)
    // A time-out or a wrap-up request jumps to the summary.
    ensures TimeUp(timebox, records) || WrapUpAsked(userMessage) ==> PhaseOf(u.customData) == Summary
    // The session finishes exactly on a turn that began in the summary, and the phase
    // itself is never "finished".
    ensures u.status == (if PhaseOf(cd) == Summary then Finished else status)
    // Only the current phase's data changes: the message is added when non-empty, and
    // the phase is marked complete when the reply closes it.
    ensures PhaseOf(cd) != Summary ==>
              var p := PhaseOf(cd);
              && DataOf(u.customData, p).responses
                 == DataOf(cd, p).responses + (if userMessage != "" then [userMessage] else [])
              && DataOf(u.customData, p).completed == (DataOf(cd, p).completed || Closes(p, coachResponse))
              && (forall q :: q != Summary && q != p ==> DataOf(u.customData, q) == DataOf(cd, q))
    ensures PhaseOf(cd) == Summary ==> u.customData.(phase := cd.phase) == cd
    ensures u.customData.progressNotes == cd.progressNotes
  {
    var p := PhaseOf(cd);
    var stepped :=
      if p == Summary then Updated(cd.(phase := Some(Summary)), Finished)
      else
        var d := DataOf(cd, p);
        var d1 := d.(responses := d.responses + if userMessage != "" then [userMessage] else []);
        var closes := Closes(p, coachResponse);
        var d2 := if closes then d1.(completed := true) else d1;
        var cd1 := WithData(cd, p, d2);
        Updated(cd1.(phase := Some(if closes then Next(p) else p)), status);
    var cd2 := if TimeUp(timebox, records) && p != Summary then stepped.customData.(phase := Some(Summary))
               else stepped.customData;
    var cd3 := if WrapUpAsked(userMessage) then cd2.(phase := Some(Summary)) else cd2;
    Updated(cd3, stepped.status)
  }

  /** The time box of the block's first specification, "" when absent. */
  function Timebox(specs: seq<Spec>): string {
    Lookup(FirstSpec(specs), TimeboxKey, "")
  }

  /** Without a `timebox` entry the time box is "", which never runs out, however many
      records the session holds. */
  lemma AbsentTimeboxNeverTimesOut(specs: seq<Spec>, records: nat)
    requires forall k :: 0 <= k < |FirstSpec(specs)| ==> FirstSpec(specs)[k].0 != TimeboxKey
    ensures !TimeUp(Timebox(specs), records)
  {
    assert Timebox(specs) == "";
  }

  /** One `run_workflow_stream` turn; `specs` are the block's parsed specifications. */
  function Step(st: ReflectionState, specs: seq<Spec>, userMessage: string, now: string, chunks: seq<string>): (r: StreamTurn<ReflectionRecord>)
    ensures st.status == Finished ==> r == StreamTurn(st, [AlreadyFinishedReply])
    ensures st.status == Active ==>
              var entry := PhaseOf(st.customData);
              && r.yielded == chunks
              // exactly one record is appended, tagged with the phase the turn began in
              && r.state.answers == st.answers + [ReflectionRecord(userMessage, Concat(chunks), now, entry)]
              && r.state == st.(answers := r.state.answers, status := r.state.status, customData := r.state.customData)
              && r.state.customData.phase.Some?
              && entry.Rank() <= PhaseOf(r.state.customData).Rank()
              // the session finishes exactly when the turn began in the summary
              && (r.state.status == Finished <==> entry == Summary)
              // the phase data is `_update_phase_and_data`'s, with the new record counted
              && r.state.customData ==
                   UpdatePhaseAndData(Initialised(st.customData), Active, |st.answers| + 1, userMessage,
                                      Concat(chunks), Timebox(specs)).customData
  {
    if st.status == Finished then StreamTurn(st, [AlreadyFinishedReply])
    else
      var cd := Initialised(st.customData);
      var full := Concat(chunks);
      var answers := st.answers + [ReflectionRecord(userMessage, full, now, PhaseOf(cd))];
      var u := UpdatePhaseAndData(cd, st.status, |answers|, userMessage, full, Timebox(specs));
      StreamTurn(st.(answers := answers, customData := u.customData, status := u.status), chunks)
  }

  /** The inputs of one turn. */
  datatype Input = Input(userMessage: string, now: string, chunks: seq<string>)

  function Run(st: ReflectionState, specs: seq<Spec>, inputs: seq<Input>): ReflectionState
    decreases |inputs|
  {
    if |inputs| == 0 then st
    else
      var i := inputs[0];
      Run(Step(st, specs, i.userMessage, i.now, i.chunks).state, specs, inputs[1..])
  }

  /** The records' phase tags never go back. */
  predicate TagsOrdered(answers: seq<ReflectionRecord>) {
    forall k, m :: 0 <= k < m < |answers| ==> answers[k].phase.Rank() <= answers[m].phase.Rank()
  }

  /** The states reachable from creation: the tags are ordered and the last one is no
      later than the current phase; a finished session's last turn began in the summary. */
  predicate Valid(st: ReflectionState) {
    && TagsOrdered(st.answers)
    && (|st.answers| > 0 ==> Last(st.answers).phase.Rank() <= PhaseOf(st.customData).Rank())
    && (st.status == Finished && |st.answers| > 0 ==> Last(st.answers).phase == Summary)
  }

  lemma StepKeepsValid(st: ReflectionState, specs: seq<Spec>, userMessage: string, now: string, chunks: seq<string>)
    requires Valid(st)
    ensures Valid(Step(st, specs, userMessage, now, chunks).state)
  {
    var r := Step(st, specs, userMessage, now, chunks);
    if st.status == Active {
      assert PhaseOf(Initialised(st.customData)) == PhaseOf(st.customData);
      var a := r.state.answers;
      forall k, m | 0 <= k < m < |a|
        ensures a[k].phase.Rank() <= a[m].phase.Rank()
      {
        if m == |a| - 1 && k < |st.answers| {
          assert a[k] == st.answers[k];
          assert TagsOrdered(st.answers);
          if k < |st.answers| - 1 {
            assert st.answers[k].phase.Rank() <= Last(st.answers).phase.Rank();
          }
        }
      }
    }
  }

  /** Over a whole conversation the session stays valid, the phase never moves back, and
      a finished session stays as it is. */
  lemma {:induction false} RunKeepsInvariants(st: ReflectionState, specs: seq<Spec>, inputs: seq<Input>)
    requires Valid(st)
    ensures Valid(Run(st, specs, inputs))
    ensures PhaseOf(st.customData).Rank() <= PhaseOf(Run(st, specs, inputs).customData).Rank()
    ensures st.status == Finished ==> Run(st, specs, inputs) == st
    decreases |inputs|
  {
    if |inputs| > 0 {
      var i := inputs[0];
      StepKeepsValid(st, specs, i.userMessage, i.now, i.chunks);
      var next := Step(st, specs, i.userMessage, i.now, i.chunks).state;
      assert PhaseOf(Initialised(st.customData)) == PhaseOf(st.customData);
      RunKeepsInvariants(next, specs, inputs[1..]);
    }
  }

  lemma FreshIsValid(ubId: int, blockId: int, specs: seq<Spec>)
    ensures Valid(NewState(ubId, blockId, specs))
  {
  }

  /** A session without a phase starts in the aspiration phase, with nothing collected:
      its turn is tagged `aspiration`, and, barring a time-out or a wrap-up request,
      it moves on to the strengths phase exactly when the coach's reply holds both
      transition phrases, which also mark the aspiration phase complete. */
  lemma FirstPhaseTransition(st: ReflectionState, specs: seq<Spec>, userMessage: string, now: string, chunks: seq<string>)
    requires st.status == Active && st.customData.phase.None?
    requires !TimeUp(Timebox(specs), |st.answers| + 1) && !WrapUpAsked(userMessage)
    ensures var r := Step(st, specs, userMessage, now, chunks).state;
            var closes := Contains(Lower(Concat(chunks)), "перейдемо до")
                          && Contains(Lower(Concat(chunks)), "сильних сторін");
            && Last(r.answers).phase == Aspiration
            && r.customData.phase == Some(if closes then Strengths else Aspiration)
            && DataOf(r.customData, Aspiration).completed == closes
            && DataOf(r.customData, Aspiration).responses == (if userMessage != "" then [userMessage] else [])
            && r.status == Active
  {
  }

  /** In the strengths phase, barring a time-out or a wrap-up request, the session moves
      on to feed-forward exactly when the coach's lower-cased reply holds "наступні
      кроки" or "визначимо конкретні", which also marks strengths complete; the message
      is collected either way. */
  lemma StrengthsTransition(st: ReflectionState, specs: seq<Spec>, userMessage: string, now: string, chunks: seq<string>)
    requires st.status == Active && st.customData.phase == Some(Strengths)
    requires !TimeUp(Timebox(specs), |st.answers| + 1) && !WrapUpAsked(userMessage)
    ensures var r := Step(st, specs, userMessage, now, chunks).state;
            var reply := Lower(Concat(chunks));
            var closes := Contains(reply, "наступні кроки") || Contains(reply, "визначимо конкретні");
            && Last(r.answers).phase == Strengths
            && r.customData.phase == Some(if closes then FeedForward else Strengths)
            && DataOf(r.customData, Strengths).completed == (DataOf(st.customData, Strengths).completed || closes)
            && DataOf(r.customData, Strengths).responses
               == DataOf(st.customData, Strengths).responses + (if userMessage != "" then [userMessage] else [])
            && r.status == Active
  {
  }

  /** In the feed-forward phase, barring a time-out or a wrap-up request, the session
      moves on to the summary exactly when the coach's lower-cased reply holds
      "підсумок" or "продуктивну сесію", which also marks feed-forward complete. */
  lemma FeedForwardTransition(st: ReflectionState, specs: seq<Spec>, userMessage: string, now: string, chunks: seq<string>)
    requires st.status == Active && st.customData.phase == Some(FeedForward)
    requires !TimeUp(Timebox(specs), |st.answers| + 1) && !WrapUpAsked(userMessage)
    ensures var r := Step(st, specs, userMessage, now, chunks).state;
            var reply := Lower(Concat(chunks));
            var closes := Contains(reply, "підсумок") || Contains(reply, "продуктивну сесію");
            && Last(r.answers).phase == FeedForward
            && r.customData.phase == Some(if closes then Summary else FeedForward)
            && DataOf(r.customData, FeedForward).completed == (DataOf(st.customData, FeedForward).completed || closes)
            && DataOf(r.customData, FeedForward).responses
               == DataOf(st.customData, FeedForward).responses + (if userMessage != "" then [userMessage] else [])
            && r.status == Active
  {
  }

  /** A wrap-up request, or a time box run out with the new record counted, sends any
      session that has not reached the summary there at once, without finishing it. */
  lemma WrapUpOrTimeUpJumpsToSummary(st: ReflectionState, specs: seq<Spec>, userMessage: string, now: string, chunks: seq<string>)
    requires st.status == Active && PhaseOf(st.customData) != Summary
    requires WrapUpAsked(userMessage) || TimeUp(Timebox(specs), |st.answers| + 1)
    ensures var r := Step(st, specs, userMessage, now, chunks).state;
            r.customData.phase == Some(Summary) && r.status == Active
  {
    assert PhaseOf(Initialised(st.customData)) == PhaseOf(st.customData);
  }

  /** A message holding "завершуй" or "закінчи", in any letter case, leaves the session
      in the summary phase, whatever phase the turn began in. */
  lemma WrapUpRequestEndsInSummary(st: ReflectionState, specs: seq<Spec>, userMessage: string, now: string, chunks: seq<string>)
    requires st.status == Active
    requires Contains(Lower(userMessage), "завершуй") || Contains(Lower(userMessage), "закінчи")
    ensures Step(st, specs, userMessage, now, chunks).state.customData.phase == Some(Summary)
  {
  }

  /** A time box naming 10 sends the session to the summary phase on the turn that brings
      it to eight records or more, whatever phase the turn began in. */
  lemma TenMinuteBoxEndsInSummary(st: ReflectionState, specs: seq<Spec>, userMessage: string, now: string, chunks: seq<string>)
    requires st.status == Active
    requires Contains(Timebox(specs), "10") && |st.answers| + 1 >= 8
    ensures Step(st, specs, userMessage, now, chunks).state.customData.phase == Some(Summary)
  {
  }

  /** A fresh session cannot finish on its first turn: finishing needs a turn that began
      in the summary, and the first turn begins in the aspiration phase. */
  lemma NoFinishOnFirstTurn(ubId: int, blockId: int, specs: seq<Spec>, userMessage: string, now: string, chunks: seq<string>)
    ensures Step(NewState(ubId, blockId, specs), specs, userMessage, now, chunks).state.status == Active
  {
  }
}

=== FILE: registry.dfy ===
/** The template registry: which workflow serves a block, keyed by the block's
    template id; and the message endpoint's use of it, which runs only the workflows
    that override `run_workflow`. */
module Registry {
  import opened Maybe
  import opened Strings

  /** The six workflows. */
  datatype WorkflowKind = Examination | Custom | FillGaps | Roleplay | Reflection | Analogous

  /** The template id each workflow is registered under. */
  function TemplateIdOf(k: WorkflowKind): int {
    match k
    case Examination => 12
    case Custom => 25
    case FillGaps => 26
    case Roleplay => 27
    case Reflection => 28
    case Analogous => 29
  }

  /** `get_workflow_class`: the registered workflow, if any. */
  function GetWorkflowClass(templateId: int): (r: Option<WorkflowKind>)
    ensures r.Some? <==> templateId == 12 || 25 <= templateId <= 29
    ensures r.Some? ==> TemplateIdOf(r.value) == templateId
  {
    if templateId == 12 then Some(Examination)
    else if templateId == 25 then Some(Custom)
    else if templateId == 26 then Some(FillGaps)
    else if templateId == 27 then Some(Roleplay)
    else if templateId == 28 then Some(Reflection)
    else if templateId == 29 then Some(Analogous)
    else None
  }

  /** Every workflow is found under its own id, and only there: the registry is a
      bijection between the six ids and the six workflows. */
  lemma RegistryIsBijective(templateId: int, k: WorkflowKind)
    ensures GetWorkflowClass(templateId) == Some(k) <==> TemplateIdOf(k) == templateId
  {
  }

  /** Distinct workflows have distinct ids. */
  lemma TemplateIdsDistinct(k1: WorkflowKind, k2: WorkflowKind)
    ensures TemplateIdOf(k1) == TemplateIdOf(k2) ==> k1 == k2
  {
    RegistryIsBijective(TemplateIdOf(k1), k2);
  }

  /** The workflows whose class overrides the abstract `run_workflow`; the other three
      define only `run_workflow_stream`, so their classes cannot be instantiated. */
  predicate HasRunWorkflow(k: WorkflowKind) {
    k == Examination || k == Custom || k == Analogous
  }

  /** Why the message endpoint fails: no workflow is registered (the 400 raised with
      this detail), or the registered class cannot be instantiated. */
  datatype Failure = Unregistered(detail: string) | NotInstantiable(kind: WorkflowKind)

  /** The message endpoint's dispatch: the workflow that runs, or the failure. */
  datatype Dispatch = Run(kind: WorkflowKind) | Failed(status: int, failure: Failure)

  /** The catch-all handler turns every failure inside the endpoint, the 400 included,
      into a 500. */
  const InternalError := 500

  /** `process_student_message` up to the call of `run_workflow`: a registered workflow
      with `run_workflow` runs; a registered one without it fails on instantiation; an
      unregistered id raises the 400, which leaves the endpoint as a 500. */
  function DispatchFor(templateId: int): (d: Dispatch)
    ensures d.Run? <==> GetWorkflowClass(templateId).Some? && HasRunWorkflow(GetWorkflowClass(templateId).value)
    ensures d.Run? ==> TemplateIdOf(d.kind) == templateId
    ensures d.Failed? ==> d.status == InternalError
    ensures GetWorkflowClass(templateId).None? ==>
              d.Failed? && d.failure == Unregistered("No workflow found for template " + IntToString(templateId))
    ensures GetWorkflowClass(templateId).Some? && !HasRunWorkflow(GetWorkflowClass(templateId).value) ==>
              d.Failed? && d.failure == NotInstantiable(GetWorkflowClass(templateId).value)
  {
    match GetWorkflowClass(templateId)
    case Some(k) => if HasRunWorkflow(k) then Run(k) else Failed(InternalError, NotInstantiable(k))
    case None => Failed(InternalError, Unregistered("No workflow found for template " + IntToString(templateId)))
  }

  /** The message endpoint runs a workflow for exactly three template ids: 12, 25 and
      29. The three streaming workflows (26–28) are registered but never run there. */
  lemma EndpointRunsThreeTemplates(templateId: int)
    ensures DispatchFor(templateId).Run? <==> templateId in {12, 25, 29}
    ensures 26 <= templateId <= 28 ==> DispatchFor(templateId).Failed?
  {
  }
}

=== FILE: roleplay.dfy ===
/** The role-play workflow: every turn streams the partner's reply, appends one record,
    keeps a short log of the turns on which the dialogue progressed, and decides whether
    the scenario is over. One call of `Step` is one `run_workflow_stream`; the
    generator's chunk stream is an input. */
module Roleplay {
  import opened Maybe
  import opened Strings
  import opened Base

  /** One exchange; `turn` counts from 1. */
  datatype RoleplayRecord = RoleplayRecord(userMessage: string, agentResponse: string, timestamp: string, turn: int)

  type RoleplayState = WorkflowState<RoleplayRecord>

  const AlreadyFinishedReply := "Role-play завершено. Дякую за участь!"

  /** The specification key holding the free-text finish conditions. */
  const ConditionsKey := "finish_dialogue_conditions"

  // ---------------------------------------------------------------------------
  // _update_progress_tracking
  // ---------------------------------------------------------------------------

  const ProgressKeywords: seq<string> :=
    ["чудово", "добре", "правильно", "згоден", "зрозумів",
     "наступний", "тепер", "переходимо", "good", "great", "correct", "next"]

  /** How many progress notes are kept. */
  const NotesKept := 10

  function ProgressNote(turn: nat): string {
    "Turn " + NatToString(turn) + ": Progress made"
  }

  /** The log after a turn: when the reply shows progress, the turn's note is added and
      only the most recent ten notes are kept; otherwise the log is unchanged. */
  function UpdateProgress(notes: seq<string>, turn: nat, response: string): (r: seq<string>)
    ensures ContainsAny(Lower(response), ProgressKeywords) ==>
              && |r| == (if |notes| + 1 < NotesKept then |notes| + 1 else NotesKept)
              && Last(r) == ProgressNote(turn)
              && r[..|r| - 1] == notes[|notes| - (|r| - 1)..]
    ensures !ContainsAny(Lower(response), ProgressKeywords) ==> r == notes
  {
    if ContainsAny(Lower(response), ProgressKeywords) then
      var all := notes + [ProgressNote(turn)];
      var r := TakeLast(all, NotesKept);
      assert r[..|r| - 1] == notes[|notes| - (|r| - 1)..];
      r
    else notes
  }

  /** `if not progress_notes: progress_notes = []`. */
  function InitialNotes(notes: Option<seq<string>>): seq<string> {
    if notes.None? then [] else notes.value
  }

  // ---------------------------------------------------------------------------
  // The turn limit: re.search(r'(\d+)[–\-\s]*(хвилин|turns?|exchanges?)', …)
  // ---------------------------------------------------------------------------

  /** The unit named after the count: minutes, or turns (exchanges count as turns). */
  datatype Unit = Minutes | Turns

  /** The class `[–\-\s]`: en dash, hyphen, whitespace. */
  predicate IsSep(c: char) {
    c == '–' || c == '-' || IsSpace(c)
  }

  /** The unit alternative that matches at `j`, tried in the pattern's order. */
  function UnitAt(s: string, j: nat): (u: Option<Unit>)
    ensures u.Some? ==> j < |s| && (s[j] == 'х' || s[j] == 't' || s[j] == 'e')
  {
    if OccursAt(s, "хвилин", j) then
      OccursAtHead(s, "хвилин", j);
      Some(Minutes)
    else if OccursAt(s, "turn", j) then
      OccursAtHead(s, "turn", j);
      Some(Turns)
    else if OccursAt(s, "exchange", j) then
      OccursAtHead(s, "exchange", j);
      Some(Turns)
    else None
  }

  /** The pattern, read declaratively: digits over `p..e`, at least one; separators over
      `e..j`; and a unit at `j`. */
  predicate RegexMatchesAt(s: string, p: nat, e: nat, j: nat) {
    && p < e <= j <= |s|
    && (forall k :: p <= k < e ==> IsDigit(s[k]))
    && (forall k :: e <= k < j ==> IsSep(s[k]))
    && UnitAt(s, j).Some?
  }

  /** The match attempt at `p`: the greedy digit run, the greedy separator run, then a
      unit. Backtracking never helps, because neither a digit nor a separator can start
      a unit. */
  function LimitMatchAt(s: string, p: nat): Option<(nat, Unit)> {
    if p < |s| && IsDigit(s[p]) then
      var e := SkipWhile(s, p, IsDigit);
      var j := SkipWhile(s, e, IsSep);
      match UnitAt(s, j)
      case Some(u) => Some((DigitsValue(s[p..e]), u))
      case None => None
    else None
  }

  /** The greedy attempt succeeds exactly when the pattern matches at `p` in the
      declarative reading, and then its number and unit are the match's groups. */
  lemma LimitMatchAtIsRegexMatch(s: string, p: nat)
    ensures LimitMatchAt(s, p).Some? <==> exists e: nat, j: nat :: RegexMatchesAt(s, p, e, j)
    ensures forall e: nat, j: nat :: RegexMatchesAt(s, p, e, j) ==>
              LimitMatchAt(s, p) == Some((DigitsValue(s[p..e]), UnitAt(s, j).value))
  {
    if p < |s| && IsDigit(s[p]) {
      var e0 := SkipWhile(s, p, IsDigit);
      var j0 := SkipWhile(s, e0, IsSep);
      if UnitAt(s, j0).Some? {
        assert RegexMatchesAt(s, p, e0, j0);
      }
      forall e: nat, j: nat | RegexMatchesAt(s, p, e, j)
        ensures e == e0 && j == j0
      {
        GreedyRunsAreForced(s, p, e, j);
      }
    }
  }

  /** Any declarative match has the greedy digit and separator runs. */
  lemma GreedyRunsAreForced(s: string, p: nat, e: nat, j: nat)
    requires RegexMatchesAt(s, p, e, j)
    ensures e == SkipWhile(s, p, IsDigit)
    ensures j == SkipWhile(s, e, IsSep)
  {
    SkipWhileCovers(s, p, e, IsDigit);
    SkipWhileCovers(s, e, j, IsSep);
  }

  /** The default limit when the conditions name no count. */
  const DefaultLimit := 20

  /** The match `re.search` reports: the leftmost position where the pattern matches. */
  predicate FirstLimitMatch(s: string, p: nat, n: nat, u: Unit) {
    && p <= |s|
    && LimitMatchAt(s, p) == Some((n, u))
    && forall q: nat :: q < p ==> LimitMatchAt(s, q).None?
  }

  /** The number of turns after which the dialogue ends: from the leftmost count in the
      lower-cased conditions, twice the minutes but at least ten, or the turns as given;
      twenty when the conditions name no count. */
  function TurnLimit(conditions: string): (limit: nat)
    ensures var s := Lower(conditions);
            (forall p: nat :: p <= |s| ==> LimitMatchAt(s, p).None?) ==> limit == DefaultLimit
  {
    var s := Lower(conditions);
    var f := (p: nat) => LimitMatchAt(s, p);
    var m := Leftmost(f, 0, |s| + 1);
    assert forall q: nat :: f(q) == LimitMatchAt(s, q);
    match m
    case None => DefaultLimit
    case Some((_, (n, Minutes))) => if 2 * n > 10 then 2 * n else 10
    case Some((_, (n, Turns))) => n
  }

  /** The limit comes from the leftmost match: twice its minutes but at least ten, or
      its turns as given. */
  lemma TurnLimitFromFirstMatch(conditions: string, p: nat, n: nat, u: Unit)
    requires FirstLimitMatch(Lower(conditions), p, n, u)
    ensures TurnLimit(conditions) == if u == Minutes then (if 2 * n > 10 then 2 * n else 10) else n
  {
    var s := Lower(conditions);
    var f := (q: nat) => LimitMatchAt(s, q);
    assert forall q: nat :: f(q) == LimitMatchAt(s, q);
    var m := Leftmost(f, 0, |s| + 1);
    assert m == Some((p, (n, u))) by {
      assert f(p).Some?;
      assert m.Some? && LimitMatchAt(s, m.value.0).Some?;
      assert m.value.0 == p;
    }
  }

  /** A conditions text that opens with a count, separators and a unit takes its limit
      from that count. */
  lemma {:induction false} LeadingCount(conditions: string, ds: string, sep: string, rest: string)
    requires Lower(conditions) == ds + sep + rest
    requires |ds| > 0 && AllDigits(ds)
    requires forall k :: 0 <= k < |sep| ==> IsSep(sep[k])
    requires UnitAt(rest, 0).Some?
    ensures UnitAt(rest, 0) == Some(Turns) ==> TurnLimit(conditions) == DigitsValue(ds)
    ensures UnitAt(rest, 0) == Some(Minutes) ==>
              TurnLimit(conditions) == if 2 * DigitsValue(ds) > 10 then 2 * DigitsValue(ds) else 10
  {
    var s := Lower(conditions);
    var e := |ds|;
    var j := |ds| + |sep|;
    assert s[..e] == ds;
    assert s[j..] == rest;
    assert UnitAt(s, j) == UnitAt(rest, 0) by {
      assert OccursAt(s, "хвилин", j) <==> OccursAt(rest, "хвилин", 0);
      assert OccursAt(s, "turn", j) <==> OccursAt(rest, "turn", 0);
      assert OccursAt(s, "exchange", j) <==> OccursAt(rest, "exchange", 0);
    }
    assert RegexMatchesAt(s, 0, e, j);
    LimitMatchAtIsRegexMatch(s, 0);
    assert s[0..e] == ds;
    TurnLimitFromFirstMatch(conditions, 0, DigitsValue(ds), UnitAt(rest, 0).value);
  }

  /** "15 turns" sets the limit to fifteen. */
  lemma FifteenTurnsLimit(conditions: string)
    requires conditions == "15 turns"
    ensures TurnLimit(conditions) == 15
  {
    var ds, sep, rest := "15", " ", "turns";
    assert Lower(conditions) == ds + sep + rest;
    assert UnitAt(rest, 0) == Some(Turns);
    assert AllDigits(ds) && DigitsValue(ds) == 15;
    assert forall k :: 0 <= k < |sep| ==> IsSep(sep[k]);
    LeadingCount(conditions, ds, sep, rest);
  }

  /** "3 хвилини" (three minutes) sets the limit to ten, the minimum. */
  lemma ThreeMinutesLimit(conditions: string)
    requires conditions == "3 хвилини"
    ensures TurnLimit(conditions) == 10
  {
    var ds, sep, rest := "3", " ", "хвилини";
    assert Lower(conditions) == ds + sep + rest;
    assert UnitAt(rest, 0) == Some(Minutes);
    assert AllDigits(ds) && DigitsValue(ds) == 3;
    assert forall k :: 0 <= k < |sep| ==> IsSep(sep[k]);
    LeadingCount(conditions, ds, sep, rest);
  }

  // ---------------------------------------------------------------------------
  // _check_finish_conditions
  // ---------------------------------------------------------------------------

  const CompletionPhrases: seq<string> :=
    ["завершено", "підсумок", "дякую за сесію", "це все",
     "completed", "finished", "that concludes", "thank you for",
     "на цьому завершуємо", "це завершує нашу розмову"]

  const ConfirmationCues: seq<string> := ["підтверд", "скаж", "фраз"]

  const ConfirmationWords: seq<string> :=
    ["зрозумів", "зрозуміла", "дякую", "так", "готов", "готова", "finished", "understood"]

  /** The lower-cased conditions ask for a confirmation from the student: they name
      "finished" or "phrase", the student, and one of the confirmation cues. */
  predicate AsksConfirmation(conditions: string) {
    var c := Lower(conditions);
    && (Contains(c, "finished") || Contains(c, "phrase"))
    && Contains(c, "student") && ContainsAny(c, ConfirmationCues)
  }

  /** One of the last three messages, lower-cased, holds a confirmation word. */
  predicate RecentlyConfirms(answers: seq<RoleplayRecord>) {
    exists k :: 0 <= k < |answers| && |answers| - 3 <= k &&
      ContainsAny(Lower(answers[k].userMessage), ConfirmationWords)
  }

  /** The conditions ask for a confirmation phrase from the student, and one of the last
      three messages contains a confirmation word: exactly when both hold. */
  function Confirmed(answers: seq<RoleplayRecord>, conditions: string): (b: bool)
    ensures b <==> AsksConfirmation(conditions) && RecentlyConfirms(answers)
  {
    var c := Lower(conditions);
    var recent := TakeLast(answers, 3);
    var confirms := exists k :: 0 <= k < |recent| && ContainsAny(Lower(recent[k].userMessage), ConfirmationWords);
    assert confirms <==> RecentlyConfirms(answers) by {
      if confirms {
        var k :| 0 <= k < |recent| && ContainsAny(Lower(recent[k].userMessage), ConfirmationWords);
        assert recent[k] == answers[|answers| - |recent| + k];
      }
      if RecentlyConfirms(answers) {
        var k :| 0 <= k < |answers| && |answers| - 3 <= k &&
                 ContainsAny(Lower(answers[k].userMessage), ConfirmationWords);
        assert recent[k - (|answers| - |recent|)] == answers[k];
      }
    }
    && (Contains(c, "finished") || Contains(c, "phrase"))
    && Contains(c, "student") && ContainsAny(c, ConfirmationCues)
    && confirms
  }

  /** The last three replies share their first fifty characters: with three or more
      records, each of the last three replies opens like the latest one. */
  function Repeating(answers: seq<RoleplayRecord>): (b: bool)
    ensures |answers| >= 3 ==>
              (b <==> forall k :: |answers| - 3 <= k < |answers| ==>
                        Prefix(answers[k].agentResponse, 50) == Prefix(answers[|answers| - 1].agentResponse, 50))
  {
    var recent := TakeLast(answers, 3);
    forall k :: 0 <= k < |recent| ==> Prefix(recent[k].agentResponse, 50) == Prefix(recent[0].agentResponse, 50)
  }

  /** `_check_finish_conditions`, on the records after the turn was appended: never
      without conditions or before the third turn; from then on, reaching the turn limit
      or a closing phrase in the reply ends the dialogue, and so does a confirmation. */
  function ShouldFinish(answers: seq<RoleplayRecord>, conditions: string, lastResponse: string): (b: bool)
    ensures b ==> conditions != "" && |answers| >= 3
    ensures conditions != "" && |answers| >= 3 && |answers| >= TurnLimit(conditions) ==> b
    ensures conditions != "" && |answers| >= 3 && ContainsAny(Lower(lastResponse), CompletionPhrases) ==> b
    ensures conditions != "" && |answers| >= 3 && Confirmed(answers, conditions) ==> b
    ensures conditions != "" && |answers| >= 3 && AsksConfirmation(conditions) && RecentlyConfirms(answers) ==> b
    ensures conditions != "" && |answers| >= 5 && Repeating(answers) ==> b
    ensures b && |answers| < TurnLimit(conditions) && !ContainsAny(Lower(lastResponse), CompletionPhrases) ==>
              Confirmed(answers, conditions) || (|answers| >= 5 && Repeating(answers))
  {
    && conditions != ""
    && |answers| >= 3
    && (|| |answers| >= TurnLimit(conditions)
        || ContainsAny(Lower(lastResponse), CompletionPhrases)
        || Confirmed(answers, conditions)
        || (|answers| >= 5 && Repeating(answers)))
  }

  /** With "15 turns" as the conditions the dialogue ends at the fifteenth turn, and at the
      fourteenth only if the reply, a confirmation or a repetition ends it. */
  lemma FifteenTurns(conditions: string, answers: seq<RoleplayRecord>, lastResponse: string)
    requires conditions == "15 turns"
    requires |answers| == 14
    requires !ContainsAny(Lower(lastResponse), CompletionPhrases)
    requires !Repeating(answers)
    ensures !ShouldFinish(answers, conditions, lastResponse)
    ensures forall x :: ShouldFinish(answers + [x], conditions, lastResponse)
  {
    FifteenTurnsLimit(conditions);
    FifteenTurnsNamesNoCue(conditions);
    NoConfirmationCue(conditions, answers);
    assert |answers| < TurnLimit(conditions);
  }

  /** Conditions that mention neither "finished" nor "phrase" never end the dialogue by
      confirmation, whatever the student wrote. */
  lemma NoConfirmationCue(conditions: string, answers: seq<RoleplayRecord>)
    requires !Contains(Lower(conditions), "finished") && !Contains(Lower(conditions), "phrase")
    ensures !Confirmed(answers, conditions)
  {
  }

  /** "15 turns" mentions neither "finished" nor "phrase". */
  lemma FifteenTurnsNamesNoCue(conditions: string)
    requires conditions == "15 turns"
    ensures !Contains(Lower(conditions), "finished") && !Contains(Lower(conditions), "phrase")
  {
    var c := Lower(conditions);
    assert c == conditions;
    forall i: nat
      ensures !OccursAt(c, "finished", i) && !OccursAt(c, "phrase", i)
    {
      AbsentFirstChar(c, "finished", i);
      AbsentFirstChar(c, "phrase", i);
    }
  }

  // ---------------------------------------------------------------------------
  // run_workflow_stream
  // ---------------------------------------------------------------------------

  /** The finish conditions of the block's first specification, "" when absent. */
  function Conditions(specs: seq<Spec>): string {
    Lookup(FirstSpec(specs), ConditionsKey, "")
  }

  /** One `run_workflow_stream` turn; `specs` are the block's parsed specifications. */
  function Step(st: RoleplayState, specs: seq<Spec>, userMessage: string, now: string, chunks: seq<string>): (r: StreamTurn<RoleplayRecord>)
    ensures st.status == Finished ==> r == StreamTurn(st, [AlreadyFinishedReply])
    ensures st.status == Active ==>
              && r.yielded == chunks
              // exactly one record is appended, numbered after the ones before it
              && r.state.answers == st.answers + [RoleplayRecord(userMessage, Concat(chunks), now, |st.answers| + 1)]
              // nothing but the records, the progress log and the status changes
              && r.state == st.(answers := r.state.answers, status := r.state.status,
                                customData := st.customData.(progressNotes := r.state.customData.progressNotes))
              && r.state.customData.progressNotes.Some?
              // the log never grows beyond ten notes
              && (|InitialNotes(st.customData.progressNotes)| <= NotesKept ==>
                    |r.state.customData.progressNotes.value| <= NotesKept)
              // the log is the previous one (empty when absent) updated with this turn:
              // the turn's note after the latest earlier notes when the reply shows progress
              && r.state.customData.progressNotes ==
                   Some(UpdateProgress(InitialNotes(st.customData.progressNotes), |st.answers| + 1, Concat(chunks)))
              && (ContainsAny(Lower(Concat(chunks)), ProgressKeywords) ==>
                    var notes := r.state.customData.progressNotes.value;
                    |notes| > 0 && Last(notes) == ProgressNote(|st.answers| + 1))
              && (!ContainsAny(Lower(Concat(chunks)), ProgressKeywords) ==>
                    r.state.customData.progressNotes == Some(InitialNotes(st.customData.progressNotes)))
              // the session ends exactly when the finish check says so
              && (r.state.status == Finished <==>
                    ShouldFinish(r.state.answers, Conditions(specs), Concat(chunks)))
              && (Conditions(specs) == "" || |st.answers| < 2 ==> r.state.status == Active)
  {
    if st.status == Finished then StreamTurn(st, [AlreadyFinishedReply])
    else
      var full := Concat(chunks);
      var answers := st.answers + [RoleplayRecord(userMessage, full, now, |st.answers| + 1)];
      var notes := UpdateProgress(InitialNotes(st.customData.progressNotes), |answers|, full);
      var finish := ShouldFinish(answers, Conditions(specs), full);
      StreamTurn(st.(answers := answers, customData := st.customData.(progressNotes := Some(notes)),
                     status := if finish then Finished else Active),
                 chunks)
  }

  /** From the fifth turn on, records whose last three replies open with the same fifty
      characters end a dialogue that has conditions, whatever the latest reply says. */
  lemma RepeatedRepliesFinish(answers: seq<RoleplayRecord>, conditions: string, lastResponse: string)
    requires conditions != "" && |answers| >= 5
    requires Prefix(answers[|answers| - 3].agentResponse, 50) == Prefix(answers[|answers| - 1].agentResponse, 50)
    requires Prefix(answers[|answers| - 2].agentResponse, 50) == Prefix(answers[|answers| - 1].agentResponse, 50)
    ensures ShouldFinish(answers, conditions, lastResponse)
  {
    var n := |answers|;
    forall k | n - 3 <= k < n
      ensures Prefix(answers[k].agentResponse, 50) == Prefix(answers[n - 1].agentResponse, 50)
    {
      assert k == n - 3 || k == n - 2 || k == n - 1;
    }
  }

  /** The same, for one turn: a reply that opens like the two replies before it ends
      the dialogue from the fifth turn on. */
  lemma RepetitionEndsDialogue(st: RoleplayState, specs: seq<Spec>, userMessage: string, now: string, chunks: seq<string>)
    requires st.status == Active && Conditions(specs) != "" && |st.answers| >= 4
    requires Prefix(st.answers[|st.answers| - 2].agentResponse, 50) == Prefix(Concat(chunks), 50)
    requires Prefix(st.answers[|st.answers| - 1].agentResponse, 50) == Prefix(Concat(chunks), 50)
    ensures Step(st, specs, userMessage, now, chunks).state.status == Finished
  {
    var r := Step(st, specs, userMessage, now, chunks);
    var a := st.answers + [RoleplayRecord(userMessage, Concat(chunks), now, |st.answers| + 1)];
    assert r.state.answers == a;
    var n := |a|;
    assert a[n - 2] == st.answers[|st.answers| - 1];
    assert a[n - 3] == st.answers[|st.answers| - 2];
    RepeatedRepliesFinish(a, Conditions(specs), Concat(chunks));
  }

  /** From the third turn on, when the conditions ask the student for a confirmation,
      a message holding a confirmation word ends the dialogue. */
  lemma ConfirmationEndsDialogue(st: RoleplayState, specs: seq<Spec>, userMessage: string, now: string, chunks: seq<string>)
    requires st.status == Active && Conditions(specs) != "" && |st.answers| >= 2
    requires AsksConfirmation(Conditions(specs))
    requires ContainsAny(Lower(userMessage), ConfirmationWords)
    ensures Step(st, specs, userMessage, now, chunks).state.status == Finished
  {
    var a := Step(st, specs, userMessage, now, chunks).state.answers;
    assert a[|a| - 1].userMessage == userMessage;
    assert RecentlyConfirms(a);
  }

  /** The records are numbered 1, 2, … in order, and the log holds at most ten notes. */
  predicate Valid(st: RoleplayState) {
    && (forall k :: 0 <= k < |st.answers| ==> st.answers[k].turn == k + 1)
    && (st.customData.progressNotes.Some? ==> |st.customData.progressNotes.value| <= NotesKept)
  }

  /** The inputs of one turn. */
  datatype Input = Input(userMessage: string, now: string, chunks: seq<string>)

  function Run(st: RoleplayState, specs: seq<Spec>, inputs: seq<Input>): RoleplayState
    decreases |inputs|
  {
    if |inputs| == 0 then st
    else
      var i := inputs[0];
      Run(Step(st, specs, i.userMessage, i.now, i.chunks).state, specs, inputs[1..])
  }

  lemma StepKeepsValid(st: RoleplayState, specs: seq<Spec>, userMessage: string, now: string, chunks: seq<string>)
    requires Valid(st)
    ensures Valid(Step(st, specs, userMessage, now, chunks).state)
  {
    var next := Step(st, specs, userMessage, now, chunks).state;
    StepKeepsNumbering(st, specs, userMessage, now, chunks);
    assert next.customData.progressNotes.Some? ==> |next.customData.progressNotes.value| <= NotesKept;
  }

  lemma StepKeepsNumbering(st: RoleplayState, specs: seq<Spec>, userMessage: string, now: string, chunks: seq<string>)
    requires forall k :: 0 <= k < |st.answers| ==> st.answers[k].turn == k + 1
    ensures var a := Step(st, specs, userMessage, now, chunks).state.answers;
            forall k :: 0 <= k < |a| ==> a[k].turn == k + 1
  {
    if st.status == Active {
      var x := RoleplayRecord(userMessage, Concat(chunks), now, |st.answers| + 1);
      var a := st.answers + [x];
      assert Step(st, specs, userMessage, now, chunks).state.answers == a;
      forall k | 0 <= k < |a|
        ensures a[k].turn == k + 1
      {
        if k < |st.answers| {
          assert a[k] == st.answers[k];
        } else {
          assert a[k] == x;
        }
      }
    }
  }

  /** Over a whole conversation the records stay numbered and the log short, an active
      session gains one record per turn, and without finish conditions it never ends. */
  lemma {:induction false} RunKeepsInvariants(st: RoleplayState, specs: seq<Spec>, inputs: seq<Input>)
    requires Valid(st)
    ensures Valid(Run(st, specs, inputs))
    ensures st.status == Finished ==> Run(st, specs, inputs) == st
    ensures st.status == Active && Conditions(specs) == "" ==>
              Run(st, specs, inputs).status == Active
              && |Run(st, specs, inputs).answers| == |st.answers| + |inputs|
    decreases |inputs|
  {
    if |inputs| > 0 {
      var i := inputs[0];
      var next := Step(st, specs, i.userMessage, i.now, i.chunks).state;
      StepKeepsValid(st, specs, i.userMessage, i.now, i.chunks);
      RunKeepsInvariants(next, specs, inputs[1..]);
    }
  }

  lemma FreshIsValid(ubId: int, blockId: int, specs: seq<Spec>)
    ensures Valid(NewState(ubId, blockId, specs))
  {
  }
}

=== FILE: strings.dfy ===
/** The pieces of Python's `str` behaviour the workflows rely on: `isspace`, `strip()`,
    `split()`, `lower()`, the substring test `x in s`, slicing, decimal digits, and the
    leftmost-position scan that `re.search` performs. */
module Strings {
  import opened Maybe

  // ---------------------------------------------------------------------------
  // Character classes
  // ---------------------------------------------------------------------------

  /** Python's `str.isspace()` for one character: the ASCII controls TAB..CR and
      FS..US, SPACE, NEL, NBSP and the Unicode space separators. */
  predicate IsSpace(c: char) {
    || c == ' '
    || ('\U{9}' <= c <= '\U{D}')
    || ('\U{1C}' <= c <= '\U{1F}')
    || c == '\U{85}' || c == '\U{A0}' || c == '\U{1680}'
    || ('\U{2000}' <= c <= '\U{200A}')
    || c == '\U{2028}' || c == '\U{2029}' || c == '\U{202F}' || c == '\U{205F}'
    || c == '\U{3000}'
  }

  predicate IsWordChar(c: char) {
    !IsSpace(c)
  }

  /** The regular-expression class `\d`, restricted to ASCII digits. */
  predicate IsDigit(c: char) {
    '0' <= c <= '9'
  }

  predicate AllDigits(s: string) {
    forall k :: 0 <= k < |s| ==> IsDigit(s[k])
  }

  predicate NoSpace(s: string) {
    forall k :: 0 <= k < |s| ==> !IsSpace(s[k])
  }

  // ---------------------------------------------------------------------------
  // lower()
  // ---------------------------------------------------------------------------

  /** Lower-casing of one character for ASCII letters and the Cyrillic block used by
      Ukrainian text (А..Я, Ѐ..Џ, Ґ); every other character is left as it is. */
  function LowerChar(c: char): char {
    if 'A' <= c <= 'Z' then (c as int + 32) as char
    else if '\U{410}' <= c <= '\U{42F}' then (c as int + 32) as char
    else if '\U{400}' <= c <= '\U{40F}' then (c as int + 80) as char
    else if c == '\U{490}' then '\U{491}'
    else c
  }

  /** Python's `s.lower()` over the characters `LowerChar` knows. */
  function Lower(s: string): (r: string)
    ensures |r| == |s|
    ensures forall k :: 0 <= k < |s| ==> r[k] == LowerChar(s[k])
  {
    seq(|s|, k requires 0 <= k < |s| => LowerChar(s[k]))
  }

  /** Lower-casing twice is lower-casing once. */
  lemma LowerIdempotent(s: string)
    ensures Lower(Lower(s)) == Lower(s)
  {
    assert forall k :: 0 <= k < |s| ==> LowerChar(LowerChar(s[k])) == LowerChar(s[k]);
  }

  // ---------------------------------------------------------------------------
  // Runs of characters of one class
  // ---------------------------------------------------------------------------

  /** The end of the longest run of `p`-characters that starts at `i`. */
  function SkipWhile(s: string, i: nat, p: char -> bool): (j: nat)
    requires i <= |s|
    ensures i <= j <= |s|
    ensures forall k :: i <= k < j ==> p(s[k])
    ensures j == |s| || !p(s[j])
    decreases |s| - i
  {
    if i < |s| && p(s[i]) then SkipWhile(s, i + 1, p) else i
  }

  /** The run found from `i` reaches at least as far as any run of `p`-characters from `i`. */
  lemma SkipWhileCovers(s: string, i: nat, e: nat, p: char -> bool)
    requires i <= e <= |s|
    requires forall k :: i <= k < e ==> p(s[k])
    ensures SkipWhile(s, i, p) >= e
  {
  }

  /** The start of the longest run of `p`-characters that ends at `j`, not going below `lo`. */
  function SkipBackWhile(s: string, lo: nat, j: nat, p: char -> bool): (k: nat)
    requires lo <= j <= |s|
    ensures lo <= k <= j
    ensures forall m :: k <= m < j ==> p(s[m])
    ensures k == lo || !p(s[k - 1])
    decreases j
  {
    if j > lo && p(s[j - 1]) then SkipBackWhile(s, lo, j - 1, p) else j
  }

  // ---------------------------------------------------------------------------
  // strip()
  // ---------------------------------------------------------------------------

  /** The index of the first non-whitespace character of `s` (or `|s|`). */
  function StripStart(s: string): nat
    ensures StripStart(s) <= |s|
  {
    SkipWhile(s, 0, IsSpace)
  }

  /** Python's `s.strip()`: `s` without its leading and trailing whitespace. */
  function Strip(s: string): (r: string)
    ensures r == [] || (!IsSpace(r[0]) && !IsSpace(r[|r| - 1]))
    ensures r == [] <==> forall k :: 0 <= k < |s| ==> IsSpace(s[k])
    ensures StripStart(s) + |r| <= |s| && r == s[StripStart(s)..StripStart(s) + |r|]
    ensures forall k :: 0 <= k < StripStart(s) ==> IsSpace(s[k])
    ensures forall k :: StripStart(s) + |r| <= k < |s| ==> IsSpace(s[k])
  {
    var i := SkipWhile(s, 0, IsSpace);
    var j := SkipBackWhile(s, i, |s|, IsSpace);
    assert i < |s| ==> i < j;
    s[i..j]
  }

  /** Stripping twice is stripping once. */
  lemma StripIdempotent(s: string)
    ensures Strip(Strip(s)) == Strip(s)
  {
    var r := Strip(s);
    var r2 := Strip(r);
    if r != [] {
      var i := SkipWhile(r, 0, IsSpace);
      assert i == 0;
      var j := SkipBackWhile(r, 0, |r|, IsSpace);
      assert j == |r|;
    }
  }

  // ---------------------------------------------------------------------------
  // split()
  // ---------------------------------------------------------------------------

  /** Python's `s.split()` with no separator: the maximal runs of non-whitespace, in
      order; there are never empty words. */
  function Split(s: string): (ws: seq<string>)
    ensures forall k :: 0 <= k < |ws| ==> |ws[k]| > 0 && NoSpace(ws[k])
    decreases |s|
  {
    var i := SkipWhile(s, 0, IsSpace);
    if i == |s| then []
    else
      var j := SkipWhile(s, i, IsWordChar);
      [s[i..j]] + Split(s[j..])
  }

  /** `len(s.split())`. */
  function WordCount(s: string): nat {
    |Split(s)|
  }

  /** An independent count of the words of `s`: the number of positions holding a
      non-space character that is the first character or follows a space. */
  function CountStarts(s: string, afterSpace: bool): nat
    decreases |s|
  {
    if |s| == 0 then 0
    else (if afterSpace && !IsSpace(s[0]) then 1 else 0) + CountStarts(s[1..], IsSpace(s[0]))
  }

  lemma {:induction false} CountStartsSkipsSpaces(s: string, i: nat)
    requires i <= |s|
    requires forall k :: 0 <= k < i ==> IsSpace(s[k])
    ensures CountStarts(s, true) == CountStarts(s[i..], true)
    decreases i
  {
    if i > 0 {
      assert s[1..][i - 1..] == s[i..];
      CountStartsSkipsSpaces(s[1..], i - 1);
    }
  }

  lemma {:induction false} CountStartsSkipsWord(s: string, j: nat, afterSpace: bool)
    requires 0 < j <= |s|
    requires forall k :: 0 <= k < j ==> !IsSpace(s[k])
    ensures CountStarts(s, afterSpace) == (if afterSpace then 1 else 0) + CountStarts(s[j..], false)
    decreases j
  {
    if j > 1 {
      assert s[1..][j - 1..] == s[j..];
      CountStartsSkipsWord(s[1..], j - 1, false);
    }
  }

  /** The word count agrees with the independent count of word starts. */
  lemma {:induction false} WordCountIsCountStarts(s: string)
    ensures WordCount(s) == CountStarts(s, true)
    decreases |s|
  {
    var i := SkipWhile(s, 0, IsSpace);
    CountStartsSkipsSpaces(s, i);
    if i < |s| {
      var j := SkipWhile(s, i, IsWordChar);
      var t := s[i..];
      assert t[j - i..] == s[j..];
      CountStartsSkipsWord(t, j - i, true);
      var u := s[j..];
      assert u == [] || IsSpace(u[0]);
      if u != [] {
        assert CountStarts(u, false) == CountStarts(u[1..], true) == CountStarts(u, true);
      }
      WordCountIsCountStarts(u);
    }
  }

  /** A word followed by a space adds one to the word count of what follows. */
  lemma WordCountCons(w: string, rest: string)
    requires |w| > 0 && NoSpace(w)
    ensures WordCount(w + " " + rest) == 1 + WordCount(rest)
    ensures WordCount(w) == 1
  {
    var s := w + " " + rest;
    CountStartsSkipsWord(s, |w|, true);
    assert s[|w|..] == " " + rest;
    assert (" " + rest)[1..] == rest;
    CountStartsSkipsWord(w, |w|, true);
    WordCountIsCountStarts(s);
    WordCountIsCountStarts(rest);
    WordCountIsCountStarts(w);
  }

  // ---------------------------------------------------------------------------
  // Substring containment (`x in s`) and prefixes
  // ---------------------------------------------------------------------------

  /** `sub` occurs in `s` starting at position `i`. */
  predicate OccursAt(s: string, sub: string, i: nat) {
    i + |sub| <= |s| && s[i..i + |sub|] == sub
  }

  /** Python's `sub in s` for strings: substring containment. */
  predicate Contains(s: string, sub: string) {
    exists i: nat | i + |sub| <= |s| :: OccursAt(s, sub, i)
  }

  /** `any(w in s for w in subs)`. */
  predicate ContainsAny(s: string, subs: seq<string>) {
    exists k | 0 <= k < |subs| :: Contains(s, subs[k])
  }

  /** A blank text contains none of a list of non-empty strings, and lower-cases to itself. */
  lemma BlankHoldsNothing(subs: seq<string>)
    requires forall k :: 0 <= k < |subs| ==> |subs[k]| > 0
    ensures Lower("") == "" && WordCount("") == 0
    ensures !ContainsAny("", subs)
  {
  }

  /** An occurrence inside a part is an occurrence in the whole. */
  lemma ContainsInMiddle(a: string, sub: string, b: string)
    ensures Contains(a + sub + b, sub)
  {
    assert OccursAt(a + sub + b, sub, |a|);
  }

  /** An occurrence starts with the first character of what occurs. */
  lemma OccursAtHead(s: string, sub: string, i: nat)
    requires |sub| > 0 && OccursAt(s, sub, i)
    ensures i < |s| && s[i] == sub[0]
  {
    assert s[i..i + |sub|][0] == s[i];
  }

  /** A character that never occurs in `s` rules out every substring starting with it. */
  lemma AbsentFirstChar(s: string, sub: string, i: nat)
    requires |sub| > 0 && sub[0] !in s
    ensures !OccursAt(s, sub, i)
  {
  }

  /** When no pattern's first character occurs in `s`, none of the patterns does. */
  lemma NoFirstCharOccurs(s: string, subs: seq<string>)
    requires forall k :: 0 <= k < |subs| ==> |subs[k]| > 0 && subs[k][0] !in s
    ensures !ContainsAny(s, subs)
  {
    forall k, i: nat | 0 <= k < |subs|
      ensures !OccursAt(s, subs[k], i)
    {
      AbsentFirstChar(s, subs[k], i);
    }
  }

  /** Python's `s[:n]`. */
  function Prefix(s: string, n: nat): (r: string)
    ensures |r| == if |s| < n then |s| else n
    ensures r <= s
  {
    if |s| <= n then s else s[..n]
  }

  /** Python's `xs[-n:]` for `n > 0`: the last `n` elements, or all of them. */
  function TakeLast<T>(xs: seq<T>, n: nat): (r: seq<T>)
    ensures |r| == if |xs| < n then |xs| else n
    ensures forall k :: 0 <= k < |r| ==> r[k] == xs[|xs| - |r| + k]
  {
    if |xs| <= n then xs else xs[|xs| - n..]
  }

  /** Python's `sep.join(parts)`. */
  function Join(parts: seq<string>, sep: string): string
    decreases |parts|
  {
    if |parts| == 0 then ""
    else if |parts| == 1 then parts[0]
    else parts[0] + sep + Join(parts[1..], sep)
  }

  /** What occurs in a text occurs in it with anything put in front. */
  lemma ContainsAfter(pre: string, t: string, sub: string)
    requires Contains(t, sub)
    ensures Contains(pre + t, sub)
  {
    var i: nat :| i + |sub| <= |t| && OccursAt(t, sub, i);
    assert (pre + t)[|pre| + i..|pre| + i + |sub|] == t[i..i + |sub|];
    assert OccursAt(pre + t, sub, |pre| + i);
  }

  /** A joined text starts with the first part and contains every part. */
  lemma {:induction false} JoinHasParts(parts: seq<string>, sep: string)
    ensures |parts| > 0 ==> parts[0] <= Join(parts, sep)
    ensures forall k :: 0 <= k < |parts| ==> Contains(Join(parts, sep), parts[k])
    decreases |parts|
  {
    if |parts| == 1 {
      assert OccursAt(parts[0], parts[0], 0);
    } else if |parts| > 1 {
      var rest := Join(parts[1..], sep);
      JoinHasParts(parts[1..], sep);
      assert Join(parts, sep) == parts[0] + (sep + rest);
      forall k | 0 <= k < |parts|
        ensures Contains(Join(parts, sep), parts[k])
      {
        if k == 0 {
          assert OccursAt(Join(parts, sep), parts[0], 0);
        } else {
          assert parts[1..][k - 1] == parts[k];
          ContainsAfter(parts[0] + sep, rest, parts[k]);
          assert parts[0] + sep + rest == Join(parts, sep);
        }
      }
    }
  }

  /** Non-empty words without whitespace, joined by single spaces, split back into as
      many words. */
  lemma {:induction false} WordCountJoin(words: seq<string>)
    requires forall k :: 0 <= k < |words| ==> |words[k]| > 0 && NoSpace(words[k])
    ensures WordCount(Join(words, " ")) == |words|
    decreases |words|
  {
    if |words| == 1 {
      WordCountCons(words[0], "");
    } else if |words| > 1 {
      WordCountCons(words[0], Join(words[1..], " "));
      WordCountJoin(words[1..]);
    }
  }

  // ---------------------------------------------------------------------------
  // Streams of text chunks
  // ---------------------------------------------------------------------------

  /** The text a chunk stream spells out. */
  function Concat(chunks: seq<string>): string {
    if |chunks| == 0 then "" else chunks[0] + Concat(chunks[1..])
  }

  lemma {:induction false} ConcatSnoc(chunks: seq<string>, c: string)
    ensures Concat(chunks + [c]) == Concat(chunks) + c
    decreases |chunks|
  {
    if |chunks| > 0 {
      assert (chunks + [c])[1..] == chunks[1..] + [c];
      ConcatSnoc(chunks[1..], c);
    }
  }

  /** The `full_response += chunk` loop that forwards a stream while buffering it:
      the buffer ends up holding the concatenation of the chunks in order. */
  method Drain(chunks: seq<string>) returns (full: string)
    ensures full == Concat(chunks)
  {
    full := "";
    var i := 0;
    while i < |chunks|
      invariant 0 <= i <= |chunks|
      invariant full == Concat(chunks[..i])
    {
      assert chunks[..i + 1] == chunks[..i] + [chunks[i]];
      ConcatSnoc(chunks[..i], chunks[i]);
      full := full + chunks[i];
      i := i + 1;
    }
    assert chunks[..i] == chunks;
  }

  // ---------------------------------------------------------------------------
  // Decimal digits
  // ---------------------------------------------------------------------------

  function DigitValue(c: char): nat
    requires IsDigit(c)
  {
    c as int - '0' as int
  }

  function DigitChar(d: nat): (c: char)
    requires d < 10
    ensures IsDigit(c) && DigitValue(c) == d
  {
    ('0' as int + d) as char
  }

  /** Python's `int(ds)` for a string of ASCII digits. */
  function DigitsValue(ds: string): nat
    requires AllDigits(ds)
  {
    if |ds| == 0 then 0 else DigitsValue(ds[..|ds| - 1]) * 10 + DigitValue(ds[|ds| - 1])
  }

  /** A digit string without superfluous leading zeros. */
  predicate Canonical(ds: string) {
    |ds| > 0 && AllDigits(ds) && (|ds| == 1 || ds[0] != '0')
  }

  /** Python's `str(n)` for a natural number, whose value is `n` again. */
  function NatToString(n: nat): (s: string)
    ensures Canonical(s)
    ensures DigitsValue(s) == n
    ensures s[0] == '0' ==> n == 0
  {
    if n < 10 then [DigitChar(n)]
    else
      var front := NatToString(n / 10);
      var s := front + [DigitChar(n % 10)];
      assert s[..|s| - 1] == front;
      s
  }

  lemma {:induction false} CanonicalPrefix(ds: string)
    requires Canonical(ds) && |ds| > 1
    ensures Canonical(ds[..|ds| - 1])
    ensures DigitsValue(ds[..|ds| - 1]) > 0
  {
    var front := ds[..|ds| - 1];
    LeadingDigitPositive(front);
  }

  lemma {:induction false} LeadingDigitPositive(ds: string)
    requires AllDigits(ds) && |ds| > 0 && ds[0] != '0'
    ensures DigitsValue(ds) > 0
    decreases |ds|
  {
    if |ds| > 1 {
      LeadingDigitPositive(ds[..|ds| - 1]);
    }
  }

  /** Reading a canonical digit string and printing the number gives the string back. */
  lemma {:induction false} NatToStringOfDigits(ds: string)
    requires Canonical(ds)
    ensures NatToString(DigitsValue(ds)) == ds
    decreases |ds|
  {
    var n := DigitsValue(ds);
    if |ds| == 1 {
    } else {
      var front := ds[..|ds| - 1];
      CanonicalPrefix(ds);
      NatToStringOfDigits(front);
      var d := DigitValue(ds[|ds| - 1]);
      assert n == DigitsValue(front) * 10 + d;
      assert n / 10 == DigitsValue(front) && n % 10 == d;
      assert ds == front + [ds[|ds| - 1]];
    }
  }

  /** Python's `str(i)` for any integer. */
  function IntToString(i: int): (s: string)
    ensures i >= 0 ==> s == NatToString(i)
    ensures i < 0 ==> s == "-" + NatToString(-i)
  {
    if i >= 0 then NatToString(i) else "-" + NatToString(-i)
  }

  // ---------------------------------------------------------------------------
  // Leftmost match, as `re.search` finds it
  // ---------------------------------------------------------------------------

  /** The first position `p` in `from .. to - 1` at which `matchAt` succeeds, with its result. */
  function Leftmost<T>(matchAt: nat -> Option<T>, from: nat, to: nat): (r: Option<(nat, T)>)
    ensures r.Some? ==> from <= r.value.0 < to && matchAt(r.value.0) == Some(r.value.1)
    ensures r.Some? ==> (forall q :: from <= q < r.value.0 ==> matchAt(q).None?)
    ensures r.None? ==> (forall q :: from <= q < to ==> matchAt(q).None?)
    decreases if from <= to then to - from else 0
  {
    if from >= to then None
    else match matchAt(from)
      case Some(v) => Some((from, v))
      case None => Leftmost(matchAt, from + 1, to)
  }
}

=== FILE: xano_client.dfy ===
/** The pieces of the Xano client that hold logic rather than transport: reading the
    final score out of an evaluation report, assembling the session-update request, and
    converting a workflow state to and from its stored row. */
module XanoClient {
  import opened Maybe
  import opened Strings
  import opened Base

  // ---------------------------------------------------------------------------
  // _extract_score
  // ---------------------------------------------------------------------------

  /** The labels of the three score patterns, in the order they are tried. */
  const BoldLabel := "**Total Score:**"
  const PlainLabel := "Total Score:"
  const UkrainianLabel := "Загальна оцінка:"
  const Labels: seq<string> := [BoldLabel, PlainLabel, UkrainianLabel]

  /** An exact decimal: the number `units / 10^places`, as a matched `\d+(?:\.\d+)?`
      spells it. It is positive exactly when `units` is. */
  datatype Decimal = Decimal(units: nat, places: nat)

  /** The digit run from `k` on, read onto `acc` (the value of the digits before it):
      the value of all the digits, and the index just past them. */
  function ReadDigits(s: string, k: nat, acc: nat): (r: (nat, nat))
    requires k <= |s|
    ensures k <= r.1 <= |s| && (r.1 == |s| || !IsDigit(s[r.1]))
    decreases |s| - k
  {
    if k < |s| && IsDigit(s[k]) then ReadDigits(s, k + 1, acc * 10 + DigitValue(s[k])) else (acc, k)
  }

  /** The number `\d+(?:\.\d+)?` matches at `i`, with the index just past it: the
      greedy digit run, then a fraction when a dot and a digit follow. The fraction's
      digits continue the units, and their count is the number of decimal places. */
  function NumberAt(s: string, i: nat): (r: Option<(Decimal, nat)>)
    ensures r.Some? ==> i < r.value.1 <= |s| && IsDigit(s[i])
  {
    if i < |s| && IsDigit(s[i]) then
      var (whole, e1) := ReadDigits(s, i, 0);
      if e1 + 1 < |s| && s[e1] == '.' && IsDigit(s[e1 + 1]) then
        var (units, e2) := ReadDigits(s, e1 + 1, whole);
        Some((Decimal(units, e2 - (e1 + 1)), e2))
      else Some((Decimal(whole, 0), e1))
    else None
  }

  /** A number immediately followed by '/' and a second number, read from `i`: both
      numbers. */
  function RatioAt(s: string, i: nat): (r: Option<(Decimal, Decimal)>)
    ensures r.Some? ==> i < |s| && IsDigit(s[i])
  {
    match NumberAt(s, i)
    case Some((a, e)) =>
      if e < |s| && s[e] == '/' then
        match NumberAt(s, e + 1)
        case Some((b, _)) => Some((a, b))
        case None => None
      else None
    case None => None
  }

  /** The match attempt of the pattern with `key` at `p`: the key, any whitespace, then
      a ratio. Reading each run greedily is exact here: a shorter run of spaces or
      digits is followed by a space or a digit, where the pattern needs a digit, '.' or
      '/'. */
  function ScoreMatchAt(s: string, key: string, p: nat): Option<(Decimal, Decimal)> {
    if OccursAt(s, key, p) then RatioAt(s, SkipWhile(s, p + |key|, IsSpace)) else None
  }

  /** `p` is where `re.search` stops: the pattern matches there and at no earlier position. */
  predicate FirstMatchAt(s: string, key: string, p: nat) {
    p <= |s| && ScoreMatchAt(s, key, p).Some? &&
    forall q: nat :: q < p ==> ScoreMatchAt(s, key, q).None?
  }

  /** The leftmost match of one pattern, as `re.search` reports it: nothing when the
      pattern matches nowhere, otherwise the match at the first matching position and
      no later one. */
  function Search(s: string, key: string): (r: Option<(Decimal, Decimal)>)
    ensures r.None? <==> forall p: nat :: p <= |s| ==> ScoreMatchAt(s, key, p).None?
    ensures forall p: nat :: FirstMatchAt(s, key, p) ==> r == ScoreMatchAt(s, key, p)
    ensures ScoreMatchAt(s, key, 0).Some? ==> r == ScoreMatchAt(s, key, 0)
  {
    var matchAt := (p: nat) => ScoreMatchAt(s, key, p);
    assert forall p: nat :: matchAt(p) == ScoreMatchAt(s, key, p);
    match Leftmost(matchAt, 0, |s| + 1)
    case Some((p0, v)) =>
      assert FirstMatchAt(s, key, p0);
      Some(v)
    case None => None
  }

  /** The pattern with `key` gives a score: its leftmost match has a positive denominator. */
  predicate Usable(s: string, key: string) {
    Search(s, key).Some? && Search(s, key).value.1.units > 0
  }

  /** `labels[k]` is the first pattern that gives a score. */
  predicate FirstUsable(s: string, labels: seq<string>, k: nat) {
    k < |labels| && Usable(s, labels[k]) && forall j :: 0 <= j < k ==> !Usable(s, labels[j])
  }

  /** The patterns from `labels` on: the first one whose leftmost match has a positive
      denominator gives its numerator; a match with a zero denominator passes on to the
      next pattern, never to a later match of the same one. */
  function ExtractFrom(s: string, labels: seq<string>): (r: Option<Decimal>)
    ensures r.Some? ==> exists k :: 0 <= k < |labels| && Search(s, labels[k]).Some?
    ensures (forall k :: 0 <= k < |labels| ==> Search(s, labels[k]).None?) ==> r.None?
    ensures |labels| > 0 && Search(s, labels[0]).Some? && Search(s, labels[0]).value.1.units > 0 ==>
              r == Some(Search(s, labels[0]).value.0)
    decreases |labels|
  {
    if |labels| == 0 then None
    else match Search(s, labels[0])
      case Some((a, b)) =>
        if b.units > 0 then Some(a)
        else
          var r := ExtractFrom(s, labels[1..]);
          assert forall k :: 1 <= k < |labels| ==> labels[k] == labels[1..][k - 1];
          r
      case None =>
        var r := ExtractFrom(s, labels[1..]);
        assert forall k :: 1 <= k < |labels| ==> labels[k] == labels[1..][k - 1];
        r
  }

  /** The score is the numerator of the first pattern that gives one. */
  lemma {:induction false} ExtractFromFirstUsable(s: string, labels: seq<string>, k: nat)
    requires FirstUsable(s, labels, k)
    ensures ExtractFrom(s, labels) == Some(Search(s, labels[k]).value.0)
    decreases k
  {
    if k > 0 {
      var tail := labels[1..];
      assert !Usable(s, labels[0]);
      ExtractSkips(s, labels);
      NoneUsableTail(s, labels, k);
      ExtractFromFirstUsable(s, tail, k - 1);
    }
  }

  /** Dropping the first pattern keeps the ones before `k` unusable. */
  lemma NoneUsableTail(s: string, labels: seq<string>, k: nat)
    requires 0 < k <= |labels|
    requires forall j :: 0 <= j < k ==> !Usable(s, labels[j])
    ensures forall j :: 0 <= j < k - 1 ==> !Usable(s, labels[1..][j])
  {
    forall j | 0 <= j < k - 1
      ensures !Usable(s, labels[1..][j])
    {
      assert labels[1..][j] == labels[j + 1];
    }
  }

  /** No pattern gives a score, so there is none. */
  lemma {:induction false} NoUsableNoScore(s: string, labels: seq<string>)
    requires forall k :: 0 <= k < |labels| ==> !Usable(s, labels[k])
    ensures ExtractFrom(s, labels).None?
    decreases |labels|
  {
    if |labels| > 0 {
      var tail := labels[1..];
      ExtractSkips(s, labels);
      NoneUsableTail(s, labels, |labels|);
      NoUsableNoScore(s, tail);
    }
  }

  /** `_extract_score`, without the final rounding to two decimals. */
  function ExtractScore(evaluationText: string): (r: Option<Decimal>)
    ensures r.Some? <==> exists k :: 0 <= k < |Labels| && Usable(evaluationText, Labels[k])
    ensures forall k: nat :: FirstUsable(evaluationText, Labels, k) ==>
              r == Some(Search(evaluationText, Labels[k]).value.0)
  {
    ScoresFromFirstUsable(evaluationText, Labels);
    ExtractFrom(evaluationText, Labels)
  }

  /** Some pattern gives a score, so a first one does. */
  lemma {:induction false} FirstUsableExists(s: string, labels: seq<string>, k: nat)
    requires k < |labels| && Usable(s, labels[k])
    ensures exists j: nat :: FirstUsable(s, labels, j)
    decreases k
  {
    if exists j :: 0 <= j < k && Usable(s, labels[j]) {
      var j :| 0 <= j < k && Usable(s, labels[j]);
      FirstUsableExists(s, labels, j);
    } else {
      assert FirstUsable(s, labels, k);
    }
  }

  /** The patterns give a score exactly when one of them does, and it is the first
      one's numerator. */
  lemma ScoresFromFirstUsable(s: string, labels: seq<string>)
    ensures ExtractFrom(s, labels).Some? <==> exists k :: 0 <= k < |labels| && Usable(s, labels[k])
    ensures forall k: nat :: FirstUsable(s, labels, k) ==>
              ExtractFrom(s, labels) == Some(Search(s, labels[k]).value.0)
  {
    forall k: nat | FirstUsable(s, labels, k)
      ensures ExtractFrom(s, labels) == Some(Search(s, labels[k]).value.0)
    {
      ExtractFromFirstUsable(s, labels, k);
    }
    if forall k :: 0 <= k < |labels| ==> !Usable(s, labels[k]) {
      NoUsableNoScore(s, labels);
    } else {
      var k :| 0 <= k < |labels| && Usable(s, labels[k]);
      FirstUsableExists(s, labels, k);
    }
  }

  /** The first characters of the labels and where their colons are: all the proofs
      below need to know about them. */
  lemma LabelEnds()
    ensures |BoldLabel| > 13 && BoldLabel[0] == '*' && BoldLabel[13] == ':'
    ensures |PlainLabel| > 0 && PlainLabel[0] == 'T' && PlainLabel[|PlainLabel| - 1] == ':'
    ensures |UkrainianLabel| > 0 && UkrainianLabel[0] == 'З' && UkrainianLabel[|UkrainianLabel| - 1] == ':'
  {
  }

  /** A string holding a character the text lacks occurs nowhere in it. */
  lemma AbsentChar(s: string, sub: string, j: nat, i: nat)
    requires j < |sub| && sub[j] !in s
    ensures !OccursAt(s, sub, i)
  {
    if i + |sub| <= |s| {
      assert s[i..i + |sub|][j] == s[i + j];
    }
  }

  /** A label holding a character the text lacks is never matched. */
  lemma AbsentLabelNoMatch(s: string, key: string, j: nat)
    requires j < |key| && key[j] !in s
    ensures Search(s, key).None?
  {
    forall p: nat | p <= |s|
      ensures !OccursAt(s, key, p)
    {
      AbsentChar(s, key, j, p);
    }
  }

  /** A pattern without a usable match hands the text on to the next one. */
  lemma ExtractSkips(s: string, labels: seq<string>)
    requires |labels| > 0
    requires Search(s, labels[0]).None? || Search(s, labels[0]).value.1.units == 0
    ensures ExtractFrom(s, labels) == ExtractFrom(s, labels[1..])
  {
  }

  /** With three patterns, when the first two have no usable match the third decides. */
  lemma LastOfThree(s: string, a: string, b: string, c: string)
    requires Search(s, a).None? || Search(s, a).value.1.units == 0
    requires Search(s, b).None? || Search(s, b).value.1.units == 0
    ensures ExtractFrom(s, [a, b, c]) == ExtractFrom(s, [c])
  {
    ExtractSkips(s, [a, b, c]);
    assert [a, b, c][1..] == [b, c];
    ExtractSkips(s, [b, c]);
    assert [b, c][1..] == [c];
  }

  /** Every label holds a ':', so a report without a colon has no score. */
  lemma NoColonNoScore(text: string)
    requires ':' !in text
    ensures ExtractScore(text).None?
  {
    LabelEnds();
    AbsentLabelNoMatch(text, BoldLabel, 13);
    AbsentLabelNoMatch(text, PlainLabel, |PlainLabel| - 1);
    AbsentLabelNoMatch(text, UkrainianLabel, |UkrainianLabel| - 1);
    LastOfThree(text, BoldLabel, PlainLabel, UkrainianLabel);
    ExtractSkips(text, [UkrainianLabel]);
  }

  /** Reading a digit string continues the value read so far with its digits. */
  lemma {:induction false} ReadDigitsRun(s: string, i: nat, ds: string, k: nat)
    requires AllDigits(ds) && i + |ds| <= |s| && s[i..i + |ds|] == ds && k <= |ds|
    requires i + |ds| == |s| || !IsDigit(s[i + |ds|])
    ensures ReadDigits(s, i + k, DigitsValue(ds[..k])) == (DigitsValue(ds), i + |ds|)
    decreases |ds| - k
  {
    if k < |ds| {
      assert s[i + k] == s[i..i + |ds|][k];
      assert ds[..k + 1][..k] == ds[..k];
      ReadDigitsRun(s, i, ds, k + 1);
    } else {
      assert ds[..k] == ds;
    }
  }

  /** A digit string at `i` that is followed by neither a digit nor a dot is read as
      its value. */
  lemma NumberOfDigits(s: string, i: nat, ds: string)
    requires |ds| > 0 && AllDigits(ds)
    requires i + |ds| <= |s| && s[i..i + |ds|] == ds
    requires i + |ds| == |s| || (!IsDigit(s[i + |ds|]) && s[i + |ds|] != '.')
    ensures NumberAt(s, i) == Some((Decimal(DigitsValue(ds), 0), i + |ds|))
  {
    ReadDigitsRun(s, i, ds, 0);
    assert ds[..0] == [];
    assert s[i] == s[i..i + |ds|][0];
  }

  /** The report footer the evaluation prompts ask for, `label n/m` and then the rest of
      the line. */
  function Footer(key: string, n: nat, m: nat, rest: string): string {
    key + " " + NatToString(n) + "/" + NatToString(m) + rest
  }

  /** Where the pieces of a footer sit, for any digit strings in place of the numbers. */
  lemma Layout(s: string, key: string, ns: string, ms: string, rest: string)
    requires s == key + " " + ns + "/" + ms + rest
    requires |key| > 0 && |ns| > 0 && IsDigit(ns[0])
    ensures OccursAt(s, key, 0)
    ensures SkipWhile(s, |key|, IsSpace) == |key| + 1
    ensures var i := |key| + 1;
            && i + |ns| + 1 + |ms| + |rest| == |s|
            && s[i..i + |ns|] == ns && s[i + |ns|] == '/'
            && s[i + |ns| + 1..i + |ns| + 1 + |ms|] == ms
            && (rest != [] ==> s[i + |ns| + 1 + |ms|] == rest[0])
  {
    assert s[..|key|] == key;
    var i := |key| + 1;
    assert IsSpace(s[|key|]) && s[i] == ns[0];
  }

  /** The footer's label, the space after it and the slash, without the numbers'
      contents. */
  lemma FooterFrame(key: string, n: nat, m: nat, rest: string)
    requires |key| > 0
    ensures var s := Footer(key, n, m, rest);
            && OccursAt(s, key, 0) && SkipWhile(s, |key|, IsSpace) == |key| + 1
            && |key| + 1 + |NatToString(n)| < |s| && s[|key| + 1 + |NatToString(n)|] == '/'
  {
    Layout(Footer(key, n, m, rest), key, NatToString(n), NatToString(m), rest);
  }

  /** The footer's first number is read as `n`. */
  lemma FooterFirstNumber(key: string, n: nat, m: nat, rest: string)
    requires |key| > 0
    ensures var i := |key| + 1;
            NumberAt(Footer(key, n, m, rest), i) == Some((Decimal(n, 0), i + |NatToString(n)|))
  {
    var s, ns, ms := Footer(key, n, m, rest), NatToString(n), NatToString(m);
    Layout(s, key, ns, ms, rest);
    var i := |key| + 1;
    assert s[i..i + |ns|] == ns;
    NumberOfDigits(s, i, ns);
  }

  /** The footer's second number is read as `m`, when the rest of the line does not
      continue it. */
  lemma FooterSecondNumber(s: string, i: nat, key: string, n: nat, m: nat, rest: string)
    requires |key| > 0
    requires rest == [] || (!IsDigit(rest[0]) && rest[0] != '.')
    requires s == Footer(key, n, m, rest) && i == |key| + 1 + |NatToString(n)| + 1
    ensures NumberAt(s, i) == Some((Decimal(m, 0), i + |NatToString(m)|))
  {
    var ns, ms := NatToString(n), NatToString(m);
    Layout(s, key, ns, ms, rest);
    NumberOfDigits(s, i, ms);
  }

  /** Reading a footer at the start of the text finds its numbers, when the rest of the
      line does not continue the second number. */
  lemma FooterMatches(key: string, n: nat, m: nat, rest: string)
    requires |key| > 0
    requires rest == [] || (!IsDigit(rest[0]) && rest[0] != '.')
    ensures ScoreMatchAt(Footer(key, n, m, rest), key, 0) == Some((Decimal(n, 0), Decimal(m, 0)))
  {
    var s, e := Footer(key, n, m, rest), |key| + 1 + |NatToString(n)|;
    FooterFrame(key, n, m, rest);
    FooterFirstNumber(key, n, m, rest);
    FooterSecondNumber(s, e + 1, key, n, m, rest);
    RatioIntro(s, |key| + 1, Decimal(n, 0), e, Decimal(m, 0), e + 1 + |NatToString(m)|);
  }

  /** The parts of a ratio, put together. */
  lemma RatioIntro(s: string, i: nat, a: Decimal, e: nat, b: Decimal, e2: nat)
    requires NumberAt(s, i) == Some((a, e)) && e < |s| && s[e] == '/'
    requires NumberAt(s, e + 1) == Some((b, e2))
    ensures RatioAt(s, i) == Some((a, b))
  {
  }

  /** The bold footer the prompts ask for round-trips: a report opening with
      "**Total Score:** n/m" with m > 0 scores n, whatever follows the second number
      on the line, so long as it does not continue that number. */
  lemma BoldFooterRoundTrip(n: nat, m: nat, rest: string)
    requires m > 0
    requires rest == [] || (!IsDigit(rest[0]) && rest[0] != '.')
    ensures ExtractScore(Footer(BoldLabel, n, m, rest)) == Some(Decimal(n, 0))
  {
    LabelEnds();
    FooterMatches(BoldLabel, n, m, rest);
    assert Labels[0] == BoldLabel;
  }

  /** A fractional numerator keeps its decimal places: "Total Score: 7.5/10" scores
      7.5, found by the plain pattern once the bold one has found nothing. */
  lemma FractionalScore(s: string)
    requires s == "Total Score: 7.5/10"
    ensures ExtractScore(s) == Some(Decimal(75, 1))
  {
    FractionalRatio(s);
    assert '*' !in s;
    LabelEnds();
    AbsentLabelNoMatch(s, BoldLabel, 0);
    ExtractSkips(s, Labels);
    assert Labels[1..] == [PlainLabel, UkrainianLabel];
  }

  /** The plain pattern reads "7.5" as seventy-five tenths and "10" as ten. */
  lemma FractionalRatio(s: string)
    requires s == "Total Score: 7.5/10"
    ensures ScoreMatchAt(s, PlainLabel, 0) == Some((Decimal(75, 1), Decimal(10, 0)))
  {
    assert OccursAt(s, PlainLabel, 0) by { assert s[..|PlainLabel|] == PlainLabel; }
    assert SkipWhile(s, 13, IsSpace) == 13;
    assert SkipWhile(s, 12, IsSpace) == 13;
    FractionalNumbers(s);
    RatioIntro(s, 13, Decimal(75, 1), 16, Decimal(10, 0), 19);
  }

  lemma FractionalNumbers(s: string)
    requires s == "Total Score: 7.5/10"
    ensures NumberAt(s, 13) == Some((Decimal(75, 1), 16)) && s[16] == '/'
    ensures NumberAt(s, 17) == Some((Decimal(10, 0), 19))
  {
    assert ReadDigits(s, 14, 7) == (7, 14);
    assert ReadDigits(s, 13, 0) == (7, 14);
    assert ReadDigits(s, 16, 75) == (75, 16);
    assert ReadDigits(s, 15, 7) == (75, 16);
    assert ReadDigits(s, 19, 10) == (10, 19);
    assert ReadDigits(s, 18, 1) == (10, 19);
    assert ReadDigits(s, 17, 0) == (10, 19);
  }

  /** The Ukrainian footer round-trips too: neither English label occurs in it. */
  lemma UkrainianFooterRoundTrip(n: nat, m: nat)
    requires m > 0
    ensures ExtractScore(Footer(UkrainianLabel, n, m, "")) == Some(Decimal(n, 0))
  {
    var s := Footer(UkrainianLabel, n, m, "");
    LabelEnds();
    FooterMatches(UkrainianLabel, n, m, "");
    UkrainianFooterHasNoEnglishLabel(n, m);
    LastOfThree(s, BoldLabel, PlainLabel, UkrainianLabel);
  }

  lemma UkrainianFooterHasNoEnglishLabel(n: nat, m: nat)
    ensures var s := Footer(UkrainianLabel, n, m, "");
            Search(s, BoldLabel).None? && Search(s, PlainLabel).None?
  {
    LabelEnds();
    var s := Footer(UkrainianLabel, n, m, "");
    FooterLetters(UkrainianLabel, n, m, "", '*');
    FooterLetters(UkrainianLabel, n, m, "", 'T');
    AbsentLabelNoMatch(s, BoldLabel, 0);
    AbsentLabelNoMatch(s, PlainLabel, 0);
  }

  /** A footer holds no other characters than its label's, its rest's, a space, a slash
      and digits. */
  lemma FooterLetters(key: string, n: nat, m: nat, rest: string, c: char)
    requires c !in key && c !in rest && c != ' ' && c != '/' && !IsDigit(c)
    ensures c !in Footer(key, n, m, rest)
  {
    var ns, ms := NatToString(n), NatToString(m);
    assert c !in ns by { assert forall k :: 0 <= k < |ns| ==> IsDigit(ns[k]); }
    assert c !in ms by { assert forall k :: 0 <= k < |ms| ==> IsDigit(ms[k]); }
  }

  /** Reading digits is unaffected by text in front of them. */
  lemma {:induction false} ReadDigitsShift(pre: string, t: string, k: nat, acc: nat)
    requires k <= |t|
    ensures var r := ReadDigits(t, k, acc);
            ReadDigits(pre + t, |pre| + k, acc) == (r.0, |pre| + r.1)
    decreases |t| - k
  {
    if k < |t| {
      assert (pre + t)[|pre| + k] == t[k];
      if IsDigit(t[k]) {
        ReadDigitsShift(pre, t, k + 1, acc * 10 + DigitValue(t[k]));
      }
    }
  }

  /** Skipping whitespace is unaffected by text in front of it. */
  lemma {:induction false} SkipSpacesShift(pre: string, t: string, k: nat)
    requires k <= |t|
    ensures SkipWhile(pre + t, |pre| + k, IsSpace) == |pre| + SkipWhile(t, k, IsSpace)
    decreases |t| - k
  {
    if k < |t| {
      assert (pre + t)[|pre| + k] == t[k];
      if IsSpace(t[k]) {
        SkipSpacesShift(pre, t, k + 1);
      }
    }
  }

  /** A number is read the same with text in front of it, its end shifted along. */
  lemma NumberAtShift(pre: string, t: string, i: nat)
    requires i <= |t|
    ensures NumberAt(t, i).None? ==> NumberAt(pre + t, |pre| + i).None?
    ensures NumberAt(t, i).Some? ==>
              NumberAt(pre + t, |pre| + i) == Some((NumberAt(t, i).value.0, |pre| + NumberAt(t, i).value.1))
  {
    var s := pre + t;
    if i < |t| {
      assert s[|pre| + i] == t[i];
      if IsDigit(t[i]) {
        ReadDigitsShift(pre, t, i, 0);
        var (whole, e1) := ReadDigits(t, i, 0);
        if e1 < |t| {
          assert s[|pre| + e1] == t[e1];
        }
        if e1 + 1 < |t| {
          assert s[|pre| + e1 + 1] == t[e1 + 1];
          ReadDigitsShift(pre, t, e1 + 1, whole);
        }
      }
    }
  }

  /** Where the key occurs, the pattern's match is the ratio after the whitespace. */
  lemma MatchAtKey(s: string, key: string, q: nat, k: nat, i: nat)
    requires OccursAt(s, key, q) && k == q + |key| && i == SkipWhile(s, k, IsSpace)
    ensures ScoreMatchAt(s, key, q) == RatioAt(s, i)
  {
  }

  /** A footer after any text is read as at the start of a text: the pattern matches
      where the footer begins, with the footer's numbers. */
  lemma FooterMatchesAfter(body: string, key: string, n: nat, m: nat)
    requires |key| > 0
    ensures ScoreMatchAt(body + Footer(key, n, m, ""), key, |body|) == Some((Decimal(n, 0), Decimal(m, 0)))
  {
    var s := body + Footer(key, n, m, "");
    FooterKeyAfter(body, key, n, m);
    FooterSpaceAfter(body, key, n, m);
    FooterRatioAfter(body, key, n, m);
    MatchAtKey(s, key, |body|, |body| + |key|, |body| + |key| + 1);
  }

  /** The label of a footer after any text. */
  lemma FooterKeyAfter(body: string, key: string, n: nat, m: nat)
    requires |key| > 0
    ensures OccursAt(body + Footer(key, n, m, ""), key, |body|)
  {
    var f := Footer(key, n, m, "");
    var s := body + f;
    FooterFrame(key, n, m, "");
    assert s[|body|..|body| + |key|] == f[..|key|];
  }

  /** The one space after the label of a footer after any text. */
  lemma FooterSpaceAfter(body: string, key: string, n: nat, m: nat)
    requires |key| > 0
    ensures SkipWhile(body + Footer(key, n, m, ""), |body| + |key|, IsSpace) == |body| + |key| + 1
  {
    var f := Footer(key, n, m, "");
    FooterFrame(key, n, m, "");
    SkipSpacesShift(body, f, |key|);
  }

  /** The ratio of a footer after any text. */
  lemma FooterRatioAfter(body: string, key: string, n: nat, m: nat)
    requires |key| > 0
    ensures RatioAt(body + Footer(key, n, m, ""), |body| + |key| + 1) == Some((Decimal(n, 0), Decimal(m, 0)))
  {
    var s := body + Footer(key, n, m, "");
    var e := |body| + |key| + 1 + |NatToString(n)|;
    FirstNumberAfter(body, key, n, m, s, e);
    SecondNumberAfter(body, key, n, m, s, e);
    RatioIntro(s, |body| + |key| + 1, Decimal(n, 0), e, Decimal(m, 0), e + 1 + |NatToString(m)|);
  }

  lemma FirstNumberAfter(body: string, key: string, n: nat, m: nat, s: string, e: nat)
    requires |key| > 0 && s == body + Footer(key, n, m, "") && e == |body| + |key| + 1 + |NatToString(n)|
    ensures NumberAt(s, |body| + |key| + 1) == Some((Decimal(n, 0), e))
    ensures e < |s| && s[e] == '/'
  {
    var f := Footer(key, n, m, "");
    FooterFrame(key, n, m, "");
    FooterFirstNumber(key, n, m, "");
    NumberAtShift(body, f, |key| + 1);
    assert s[e] == f[e - |body|];
  }

  lemma SecondNumberAfter(body: string, key: string, n: nat, m: nat, s: string, e: nat)
    requires |key| > 0 && s == body + Footer(key, n, m, "") && e == |body| + |key| + 1 + |NatToString(n)|
    ensures NumberAt(s, e + 1) == Some((Decimal(m, 0), e + 1 + |NatToString(m)|))
  {
    var f := Footer(key, n, m, "");
    var e' := |key| + 1 + |NatToString(n)|;
    FooterSecondNumber(f, e' + 1, key, n, m, "");
    NumberAtShift(body, f, e' + 1);
  }

  /** No character of the bold label before its colon is a colon. */
  lemma BoldLabelColon()
    ensures |BoldLabel| == 16 && BoldLabel[13] == ':'
    ensures forall j :: 0 <= j < 13 ==> BoldLabel[j] != ':'
  {
  }

  /** The bold footer closing a report: a report whose body holds no colon and which
      ends with "**Total Score:** n/m", m > 0, scores n. The search passes over the
      whole body before the label's first match. */
  lemma BoldFooterEndsReport(body: string, n: nat, m: nat)
    requires ':' !in body
    requires m > 0
    ensures ExtractScore(body + Footer(BoldLabel, n, m, "")) == Some(Decimal(n, 0))
  {
    var f := Footer(BoldLabel, n, m, "");
    var s := body + f;
    BoldLabelColon();
    assert f[..|BoldLabel|] == BoldLabel;
    FooterMatchesAfter(body, BoldLabel, n, m);
    forall q: nat | q < |body|
      ensures ScoreMatchAt(s, BoldLabel, q).None?
    {
      if q + |BoldLabel| <= |s| {
        if q + 13 < |body| {
          assert s[q + 13] == body[q + 13];
        } else {
          var j := q + 13 - |body|;
          assert s[q + 13] == f[j] == f[..|BoldLabel|][j];
        }
        assert s[q..q + |BoldLabel|][13] == s[q + 13];
      }
    }
    assert FirstMatchAt(s, BoldLabel, |body|);
    assert Labels[0] == BoldLabel;
  }

  /** A zero denominator gives no score from that match, and the search does not look for
      a later match of the same pattern: the plain label's first match decides it. */
  lemma ZeroDenominatorFallsThrough(n: nat, m: nat)
    ensures ExtractScore(Footer(PlainLabel, n, 0, " " + Footer(PlainLabel, m, 10, ""))) == None
  {
    var s := Footer(PlainLabel, n, 0, " " + Footer(PlainLabel, m, 10, ""));
    LabelEnds();
    FooterMatches(PlainLabel, n, 0, " " + Footer(PlainLabel, m, 10, ""));
    PlainFootersHaveNoOtherLabel(n, m);
    LastOfThree(s, BoldLabel, PlainLabel, UkrainianLabel);
    ExtractSkips(s, [UkrainianLabel]);
  }

  lemma PlainFootersHaveNoOtherLabel(n: nat, m: nat)
    ensures var s := Footer(PlainLabel, n, 0, " " + Footer(PlainLabel, m, 10, ""));
            Search(s, BoldLabel).None? && Search(s, UkrainianLabel).None?
  {
    LabelEnds();
    var tail := " " + Footer(PlainLabel, m, 10, "");
    var s := Footer(PlainLabel, n, 0, tail);
    FooterLetters(PlainLabel, m, 10, "", '*');
    FooterLetters(PlainLabel, m, 10, "", 'З');
    FooterLetters(PlainLabel, n, 0, tail, '*');
    FooterLetters(PlainLabel, n, 0, tail, 'З');
    AbsentLabelNoMatch(s, BoldLabel, 0);
    AbsentLabelNoMatch(s, UkrainianLabel, 0);
  }

  // ---------------------------------------------------------------------------
  // update_chat_status
  // ---------------------------------------------------------------------------

  /** The `ChatStatus` values a session can be set to. */
  datatype ChatStatus = Idle | Started | FinishedChat | Blocked {
    function Value(): string {
      match this
      case Idle => "idle"
      case Started => "started"
      case FinishedChat => "finished"
      case Blocked => "blocked"
    }
  }

  /** The body of the session-update request; an absent key is `None`. */
  datatype UpdateRequest = UpdateRequest(
    ubId: int,
    status: Option<string>,
    workSummary: Option<string>,
    grade: Option<Decimal>,
    lastAirId: Option<int>)

  /** The request `update_chat_status` sends. */
  function UpdateChatStatus(ubId: int, status: Option<ChatStatus>, grade: Option<string>, lastAirId: Option<int>): (u: UpdateRequest)
    ensures u.ubId == ubId
    // "status" is present exactly when a status is given, as its value.
    ensures u.status.Some? <==> status.Some?
    ensures status.Some? ==> u.status == Some(status.value.Value())
    // "work_summary" is present exactly when a report is given.
    ensures u.workSummary == grade
    // "grade" is present exactly when a score could be read from the report.
    ensures u.grade.Some? <==> grade.Some? && ExtractScore(grade.value).Some?
    ensures u.grade.Some? ==> u.grade == ExtractScore(grade.value)
    // "last_air_id" is present exactly when it is given and non-zero.
    ensures u.lastAirId.Some? <==> lastAirId.Some? && lastAirId.value != 0
    ensures u.lastAirId.Some? ==> u.lastAirId == lastAirId
  {
    UpdateRequest(
      ubId,
      if status.Some? then Some(status.value.Value()) else None,
      grade,
      if grade.Some? then ExtractScore(grade.value) else None,
      if lastAirId.Some? && lastAirId.value != 0 then lastAirId else None)
  }

  // ---------------------------------------------------------------------------
  // get_workflow_state / save_workflow_state
  // ---------------------------------------------------------------------------

  /** A JSON codec for one field: `json.dumps` and a `json.loads` that may fail. */
  datatype Codec<!T> = Codec(encode: T -> string, decode: string -> Option<T>)

  /** Decoding an encoding gives the value back. */
  ghost predicate RoundTrips<T(!new)>(c: Codec<T>) {
    forall v :: c.decode(c.encode(v)) == Some(v)
  }

  /** The codecs of the three serialized fields. */
  datatype Codecs<!A> = Codecs(questions: Codec<seq<Spec>>, answers: Codec<seq<A>>, customData: Codec<CustomData>)

  /** A stored row: the three collection fields may be absent, text, or structured. */
  datatype Row<A> = Row(
    ubId: int,
    blockId: int,
    index: int,
    questions: Field<seq<Spec>>,
    answers: Field<seq<A>>,
    followUpCount: int,
    maxFollowUps: int,
    status: Status,
    customData: Field<CustomData>)

  /** One field of the row: decoded from text, passed through when structured, the
      default when absent; `None` when its text does not decode. */
  function LoadField<T>(f: Field<T>, decode: string -> Option<T>, default: T): (r: Option<T>)
    ensures f.Missing? ==> r == Some(default)
    ensures f.Value? ==> r == Some(f.value)
    ensures f.Text? ==> r == decode(f.raw)
  {
    match f
    case Missing => Some(default)
    case Text(raw) => decode(raw)
    case Value(v) => Some(v)
  }

  /** `get_workflow_state`: `None` when the service returns no row (or an error), and
      when any serialized field fails to decode. */
  function Load<A>(row: Option<Row<A>>, c: Codecs<A>): (r: Option<WorkflowState<A>>)
    ensures row.None? ==> r.None?
    ensures row.Some? ==>
              (r.Some? <==>
                 && LoadField(row.value.questions, c.questions.decode, []).Some?
                 && LoadField(row.value.answers, c.answers.decode, []).Some?
                 && LoadField(row.value.customData, c.customData.decode, NoCustomData).Some?)
    ensures r.Some? ==>
              && r.value.ubId == row.value.ubId && r.value.blockId == row.value.blockId
              && r.value.index == row.value.index && r.value.status == row.value.status
              && r.value.followUpCount == row.value.followUpCount
              && r.value.maxFollowUps == row.value.maxFollowUps
    ensures r.Some? ==>
              && r.value.questions == LoadField(row.value.questions, c.questions.decode, []).value
              && r.value.answers == LoadField(row.value.answers, c.answers.decode, []).value
              && r.value.customData == LoadField(row.value.customData, c.customData.decode, NoCustomData).value
  {
    match row
    case None => None
    case Some(d) =>
      match (LoadField(d.questions, c.questions.decode, []),
             LoadField(d.answers, c.answers.decode, []),
             LoadField(d.customData, c.customData.decode, NoCustomData))
      case (Some(qs), Some(ans), Some(cd)) =>
        Some(WorkflowState(d.ubId, d.blockId, d.index, qs, ans, d.followUpCount, d.maxFollowUps, d.status, cd))
      case _ => None
  }

  /** `save_workflow_state`: the collections are stored as their JSON text, and the six
      scalar fields as they are. */
  function Save<A>(st: WorkflowState<A>, c: Codecs<A>): (row: Row<A>)
    ensures row.questions == Text(c.questions.encode(st.questions))
    ensures row.answers == Text(c.answers.encode(st.answers))
    ensures row.customData == Text(c.customData.encode(st.customData))
    ensures row.ubId == st.ubId && row.blockId == st.blockId && row.index == st.index
    ensures row.followUpCount == st.followUpCount && row.maxFollowUps == st.maxFollowUps
    ensures row.status == st.status
  {
    Row(st.ubId, st.blockId, st.index, Text(c.questions.encode(st.questions)), Text(c.answers.encode(st.answers)),
        st.followUpCount, st.maxFollowUps, st.status, Text(c.customData.encode(st.customData)))
  }

  /** Saving then loading gives the state back, given codecs that round-trip. */
  lemma SaveLoadRoundTrip<A(!new)>(st: WorkflowState<A>, c: Codecs<A>)
    requires RoundTrips(c.questions) && RoundTrips(c.answers) && RoundTrips(c.customData)
    ensures Load(Some(Save(st, c)), c) == Some(st)
  {
    assert c.questions.decode(c.questions.encode(st.questions)) == Some(st.questions);
    assert c.answers.decode(c.answers.encode(st.answers)) == Some(st.answers);
    assert c.customData.decode(c.customData.encode(st.customData)) == Some(st.customData);
  }

  /** A row whose fields are already structured loads to the same state as its saved
      form: text and structured fields are read alike. */
  lemma StructuredRowLoadsAsSaved<A(!new)>(st: WorkflowState<A>, c: Codecs<A>)
    requires RoundTrips(c.questions) && RoundTrips(c.answers) && RoundTrips(c.customData)
    ensures var structured := Row(st.ubId, st.blockId, st.index, Value(st.questions), Value(st.answers),
                                  st.followUpCount, st.maxFollowUps, st.status, Value(st.customData));
            Load(Some(structured), c) == Load(Some(Save(st, c)), c) == Some(st)
  {
    SaveLoadRoundTrip(st, c);
  }
}
